=== FILE: README.md ===
# Multitech skills and state note commands, modelled in Dafny

This project models two RPG Maker MV plugins:

- **Jay_Dualtechs** adds multitech ("dualtech") skills. A skill's note holds a
  `<Dual:ID1,Skill1,ID2,Skill2,...,HitRate>` tag. The tag names the actors who
  take part and the component skill each must contribute. The plugin patches
  the engine so that such a skill is only listed when every participant is in
  the party and knows its component. It is usable only when every participant
  meets the base conditions for its component. Each participant pays for its
  own component. The damage formula can name the participants as `c`..`l`.
  A physical multitech can take its hit rate from a chosen participant, or the
  best or worst among the user and the participants. An optional display mode
  cycles the skill window through the participants' costs.
- **StateAddRemoveCommand** runs the `onadd:` lines of a state's note when the
  state is newly added to a battler, and its `onremove:` lines when the state
  is erased.

The engine stays outside the model. Party membership, known skills, the
engine's own `meetsSkillConditions`, the four invoker gates, `Number`/`isNaN`
on tag tokens and the skill table are fields of a `Host` record and a
`Catalog`. These are functions supplied by the caller. A payment is a
`Charge` event handed to the engine's `paySkillCost`. Evaluating a damage
formula is a function from the variable bindings to a value, or to nothing when
it throws. Running a state note command is a function too. It gives the battler's `_states` afterwards and says whether the command completed or threw. The hooks record each command as a `Ran` or `Threw` event.

Modules, one per part of the plugins:

| module | file | what it holds |
|---|---|---|
| `Basics` | basics.dfy | `Option`, `Result` |
| `Text` | text.dfy | `split(',')`, `split(/[\r\n]+/)`, the regular expression `key\s*(.*)` with the `i` flag |
| `Descriptor` | descriptor.dfy | the tag parse `dualSkillData` |
| `Battle` | battle.dfy | battlers, skills, engine services |
| `Eligibility` | eligibility.dfy | `Window_SkillList.includes`, `meetsSkillConditions` |
| `Cost` | cost.dfy | `paySkillCost`; which costs `drawSkillCost` shows |
| `Cycle` | cycle.dfy | the cycle timer and phase of `Window_SkillList.update`, the shown position |
| `Outcome` | outcome.dfy | the `evalDamageFormula` wrapper, `itemHit` |
| `StateCommands` | state_commands.dfy | `eraseState`/`addNewState` hooks and note command extraction |

The loops in `includes` and `meetsSkillConditions` return early. The loop in
`paySkillCost` always visits every participant; the function returns early
only after it. Each of the three is modelled as a method with that loop. It is
proved equal to a rule stated without the loop (`Listable`, `Eligible`,
`Settlement`), and the lemmas are stated about that rule.

Behaviour of the code worth noting:

- The tag is parsed again on every call; nothing is cached.
- The parse never rejects a tag for its shape. An odd token count makes the
  last token the accuracy token, whatever it says. Only a skill name that no
  skill carries makes it throw. That error propagates out of `includes`,
  `meetsSkillConditions`, `paySkillCost`, `drawSkillCost` and `itemHit`. In
  `evalDamageFormula` the parse sits inside the `try`, so the damage becomes 0.
- Damage is clamped at 0 *before* the sign is applied. Recovery types 3 and 4
  therefore never give a positive result.
- `highest`/`lowest` start from the user's own hit rate, so the user takes part
  in the extreme even when it is not listed.
- An invoker outside the list still needs every participant present and ready
  for its component; the base rule for the multitech skill comes on top.
- The tag is not limited to ten participants. Only the formula slots and the
  `actorN` tokens stop at ten.
- With cycling on, drawing a multitech cost before the window's first
  `update()` throws. `_cyclePhase` is still `undefined` then, so the shown
  position is `NaN`, and the engine reads the cost of an undefined skill.
- A note command that throws ends its hook. The commands after it do not run.
  In `eraseState` the engine's erase is skipped too, so the state stays. In
  `addNewState` the state has already been added.
- Commands act on the battler. They can add or erase states, including the
  state whose hook is running, before the engine's own erase.

## Model

| member | source | states |
|---|---|---|
| Text.Split | js/plugins/Jay_Dualtechs.js:150 | the tag splits into at least one token; no token holds a comma; the tokens joined with commas give back the tag |
| Text.SplitUnique | js/plugins/Jay_Dualtechs.js:150 | any comma-free token list that joins to the tag is the split of the tag, so the split is determined |
| Descriptor.FirstNamed | js/plugins/Jay_Dualtechs.js:168-170 | a name resolves to the id of the first non-null skill carrying exactly that name; none exists iff no skill carries it |
| Descriptor.ResolveSkill | js/plugins/Jay_Dualtechs.js:167-174 | a numeric token is that skill id; otherwise the first skill with that exact name; the error `UnknownSkillName(token)` exactly when the token is not numeric and no skill has that name |
| Descriptor.Pairs | js/plugins/Jay_Dualtechs.js:165-175 | actor `i` comes from token `2i` and skill `i` from token `2i+1`, in order, with both lists half the token count; the parse fails iff some skill token fails, and with the error of the first failing pair |
| Descriptor.ParseTokens | js/plugins/Jay_Dualtechs.js:149-177 | even count: accuracy token `user`, all tokens paired; odd count: the last token verbatim is the accuracy token and is left out of the pairs; actors and skills always have equal length, the count divided by two; `Descriptor.Parse`, the entry point, applies it to the comma split of the tag |
| Eligibility.Includes | js/plugins/Jay_Dualtechs.js:180-203 | listed iff the item is non-null, its skill type matches, and either it has no tag or the tag parses with every participant in the party knowing its component; a tag that does not parse throws; the viewing actor is not an input |
| Eligibility.ScanParticipants | js/plugins/Jay_Dualtechs.js:315-331 | the early-return loop succeeds iff every participant is present and meets the base rule for its component and, if the invoker is listed, the invoker passes the four gates; it reports whether the invoker is listed |
| Eligibility.MeetsSkillConditions | js/plugins/Jay_Dualtechs.js:304-339 | equals the loop-free rule `Eligible`; a plain skill goes to the base rule; a multitech skill is refused to every enemy, before the tag is read |
| Eligibility.UsableImpliesReady | js/plugins/Jay_Dualtechs.js:315-322 | a usable multitech has an actor as invoker and every participant present and meeting the base rule for its own component |
| Eligibility.RemovingParticipantDisables | js/plugins/Jay_Dualtechs.js:316-319 | taking any listed participant out of the party makes the skill unusable, for every invoker |
| Eligibility.OutsiderNeedsBaseRule | js/plugins/Jay_Dualtechs.js:333-338 | an actor outside the list can use it iff every participant is ready and the actor passes the base rule for the multitech skill itself |
| Eligibility.ListedIgnoresOwnBaseRule | js/plugins/Jay_Dualtechs.js:323-334 | for a listed invoker the base rule for the multitech skill itself, cost included, is never consulted: changing its answer changes nothing, unless the invoker's own component is the multitech skill |
| Cost.PayComponents | js/plugins/Jay_Dualtechs.js:347-353 | the loop pays every participant's component in list order and finds whether the invoker is listed |
| Cost.PaySkillCost | js/plugins/Jay_Dualtechs.js:342-361 | a plain skill is one payment by the invoker; a multitech throws iff its tag does not parse, and otherwise pays its settlement |
| Cost.SettlementShape | js/plugins/Jay_Dualtechs.js:347-360 | one payment `(actors[i], skills[i])` per participant at position `i`, duplicates included; the invoker pays the multitech skill iff it is not listed, and then as the last payment |
| Cost.NoDoublePayment | js/plugins/Jay_Dualtechs.js:355-357 | a listed invoker is charged only the participants' components, never the multitech skill too |
| Cost.ShownMatchesPaid | js/plugins/Jay_Dualtechs.js:229-258 | without cycling the window draws exactly what the viewer would pay: the participants' components last to first, then the viewer's own cost exactly when the viewer would pay it |
| Cost.ShownCosts | js/plugins/Jay_Dualtechs.js:224-262 | a plain skill shows its own cost; a multitech fails iff the tag does not parse, or cycling is on and the timer has not started; with cycling, phase `p` shows the payment at position `p mod m` of the viewer's `m` payments when the viewer is in the tech, and `(p - 1) mod m` otherwise; without cycling, as many costs as the viewer would pay |
| Cost.CycledCost | js/plugins/Jay_Dualtechs.js:235-249 | the cycle walks the viewer's payments in the order they are paid, one per phase; outside the tech the viewer's own cost, paid last, comes just before the first participant's |
| Cost.CycledCostsArePaid | js/plugins/Jay_Dualtechs.js:235-249 | with cycling, every cost the viewer would pay is shown at some phase within one round, when the round fits below the wrap at 2520 |
| Cycle.Update | js/plugins/Jay_Dualtechs.js:206-219 | with cycling off an unset timer never moves; the phase stays in `[0, 2520)`; below the length a frame only counts up; at the length the window refreshes, the timer goes back to 1 and the phase advances modulo 2520; with cycling on, a stopped timer (unset or 0) restarts at phase 0 and this frame gives timer 1, or refreshes at once to phase 1 when the length is at most 0 |
| Cycle.RefreshEveryLength | js/plugins/Jay_Dualtechs.js:211-218 | from a reset timer, `CycleLength` frames give exactly one refresh and advance the phase by one |
| Cycle.ShownIndex | js/plugins/Jay_Dualtechs.js:233-242 | the shown position lies in `[-1, n-1]`, and is never -1 when the viewer is in the tech |
| Cycle.ShownIndexCovers | js/plugins/Jay_Dualtechs.js:235-242 | every position, and -1 for a viewer outside the tech, is shown at some phase below the number of positions |
| Cycle.ShownIndexAdvances | js/plugins/Jay_Dualtechs.js:239-242 | the next phase shows the next position, wrapping from the last participant to the first position |
| Cycle.ShownIndexRotation | js/plugins/Jay_Dualtechs.js:236-243 | the shown position is slot `phase mod n` in the tech, and slot `(phase - 1) mod (n + 1)` outside it, where the last slot is the viewer's own cost (-1) |
| Cycle.WrapSeamless | js/plugins/Jay_Dualtechs.js:214-217 | with at most ten positions the wrap of the phase at 2520 keeps the cycle's order |
| Cycle.WrapRepeatsWithElevenSlots | js/plugins/Jay_Dualtechs.js:214-217 | with ten participants and a viewer outside the tech, the phases just before and after the wrap both show the viewer's own cost |
| Outcome.Bind | js/plugins/Jay_Dualtechs.js:371-383 | `a` is the user, `b` the target, slot `k` of `c`..`l` holds participant `k`'s actor id; the slot is null for a token that is not a number and past the list |
| Outcome.EvalDamage | js/plugins/Jay_Dualtechs.js:364-390 | a plain skill keeps the engine's result; a multitech gives 0 when the tag does not parse or the formula throws, else the value clamped at 0 and negated for types 3 and 4; so types 3 and 4 give at most 0 and every other type at least 0 |
| Outcome.RecoveryNeverDamages | js/plugins/Jay_Dualtechs.js:384-385 | a recovery formula with a positive value heals that much, and one with a non-positive value gives 0 |
| Outcome.UnboundSlotGivesZero | js/plugins/Jay_Dualtechs.js:368-389 | a formula that throws on a null participant slot past the list gives damage 0 |
| Outcome.Source | js/plugins/Jay_Dualtechs.js:397-453 | the first participant exactly for `first`/`actor1`, the second exactly for `second`/`actor2`; the highest exactly for `higher`/`highest`/`max`, the lowest exactly for `lower`/`lowest`/`min`; the user's own hit rate exactly for `user` and every token the switch does not recognise; never a position past the tenth |
| Outcome.SelectsParticipant | js/plugins/Jay_Dualtechs.js:401-432 | participant `k` (from 0) is selected exactly by `actor` followed by the numeral of `k+1`, for `k` below ten, and by `first` for the first and `second` for the second |
| Outcome.Highest | js/plugins/Jay_Dualtechs.js:433-442 | the loop's result is at least the start and every participant's hit rate, and equals one of them |
| Outcome.Lowest | js/plugins/Jay_Dualtechs.js:443-452 | the loop's result is at most the start and every participant's hit rate, and equals one of them |
| Outcome.HitRate | js/plugins/Jay_Dualtechs.js:393-453 | the user's hit rate when the token keeps it, participant `k`'s when the token selects participant `k`, at least the user's for `highest`, at most the user's for `lowest` |
| Outcome.HighestIsMaximum | js/plugins/Jay_Dualtechs.js:433-442 | `highest` is the maximum over the user and all participants |
| Outcome.LowestIsMinimum | js/plugins/Jay_Dualtechs.js:443-452 | `lowest` is the minimum over the user and all participants |
| Outcome.ItemHit | js/plugins/Jay_Dualtechs.js:392-459 | non-physical: success rate times 0.01; physical plain skill: times the user's hit rate; physical multitech: throws iff the tag does not parse, else times the selected hit rate |
| Outcome.HighestExample | js/plugins/Jay_Dualtechs.js:433-455 | rates 0.8 and 0.95, user 0.8, success 90 and `highest` give a hit chance of 0.855 |
| Text.Lines | js/plugins/StateAddRemoveCommand.js:53 | the note splits at runs of CR/LF: no line holds a break; only the first and last line can be empty; the first line is the text before the first break; nothing but the breaks is lost |
| Text.LinesOfInterleave | js/plugins/StateAddRemoveCommand.js:53 | lines joined by any non-empty runs of CR/LF split back into exactly those lines |
| Text.FindKey | js/plugins/StateAddRemoveCommand.js:55 | finds the leftmost position where the key occurs, ignoring ASCII case, or reports that it occurs nowhere |
| Text.Extract | js/plugins/StateAddRemoveCommand.js:55 | a capture exists iff the key occurs in the line; it is the text after the leftmost key and any white space, up to the end of the line or the first line terminator |
| StateCommands.Commands | js/plugins/StateAddRemoveCommand.js:54-59 | one command per line holding the key |
| StateCommands.CommandsAreCaptures | js/plugins/StateAddRemoveCommand.js:54-59 | every command run is the capture of one of the note's lines |
| StateCommands.CommandsAppend | js/plugins/StateAddRemoveCommand.js:54-59 | commands come in line order: the commands of two blocks of lines are the first block's followed by the second's |
| StateCommands.NoteCommandsOfLines | js/plugins/StateAddRemoveCommand.js:53-59 | a note of lines separated by runs of CR/LF runs the commands of exactly those lines, in order; `StateCommands.NoteCommands` is this line split followed by `Commands` |
| StateCommands.KeysAreSeparate | js/plugins/StateAddRemoveCommand.js:62-71 | a line without `onadd:` yields no add command and a line without `onremove:` no remove command |
| StateCommands.RunAll | js/plugins/StateAddRemoveCommand.js:54-59 | commands run in order; when none throws all of them ran; when one throws, the ones before it ran, it is the last event, and none after it runs; commands that never throw never end the loop; commands that leave `_states` alone leave it alone |
| StateCommands.RunOne | js/plugins/StateAddRemoveCommand.js:54-59 | one command is recorded as run or as thrown, and `_states` is what that command left |
| StateCommands.RunAllAppend | js/plugins/StateAddRemoveCommand.js:54-59 | running `a + b` runs `a`, stops there if one of its commands throws, and otherwise runs `b` on the `_states` that `a` left, the events following on |
| StateCommands.ThrownPrefix | js/plugins/StateAddRemoveCommand.js:54-59 | the completed commands are all of the note's commands, or a proper prefix of them when one throws |
| StateCommands.RemoveThenErase | js/plugins/StateAddRemoveCommand.js:35-37 | it throws exactly when running the commands throws; its events are the commands' events, followed by the engine's erase exactly when none threw; the erase acts on the `_states` the commands left, and after a throw `_states` is what they left |
| StateCommands.EraseState | js/plugins/StateAddRemoveCommand.js:32-38 | an absent state gives only the engine's erase; for a present state it throws exactly when running the remove commands throws, and its events are theirs followed by the engine's erase on the `_states` they left exactly when none threw; a throw leaves a proper prefix of the commands run |
| StateCommands.AddNewState | js/plugins/StateAddRemoveCommand.js:41-48 | the engine's add comes first; the add commands run on the list it leaves iff the state was absent before and present after, and then the events after the add are exactly theirs; it throws exactly when they throw; without a throw every event after the add is a completed command; `_states` is what the add and the commands left |
| StateCommands.ReAddRunsNothing | js/plugins/StateAddRemoveCommand.js:42-47 | adding a state the battler already has gives only the engine's add: no command event, no throw |
| StateCommands.ThrowingRemoveKeepsState | js/plugins/StateAddRemoveCommand.js:33-37 | when one of a present state's remove commands throws, `eraseState` throws and the engine's erase never runs, and with commands that leave `_states` alone the state is still there |
| StateCommands.EraseTwiceRunsOnce | js/plugins/StateAddRemoveCommand.js:33-36 | once an erase has finished without a throw, a second erase runs no command, whatever the commands did to `_states` |
| StateCommands.SelfRemovingAddLeavesNothing | js/plugins/StateAddRemoveCommand.js:31-48 | when the add leaves the state absent, for example because an add command removed it, a later erase runs only the engine's erase |
| StateCommands.AddThenErase | js/plugins/StateAddRemoveCommand.js:31-48 | with commands that never throw and leave `_states` alone, a fresh add and then an erase run the add commands and then the remove commands, once each |

## Left out

- js/plugins/PHLiM2_Window_BattleStatus.js: window layout and drawing only, with no behaviour to state.
- Drawing in `drawSkillCost`, `drawNonDualSkillCost` and `drawComponentSkillCost` is left out: text widths, icons and names. Only which (payer, skill) costs are drawn, and in what order, is modelled.
- The `eval` of a damage formula is a function from the bindings to a value or to a throw. The variable store `v` is left out.
- The `eval` of a note command is a function from `_states` to a completion or a throw, with the resulting `_states`. Its other effects on the battler (HP, MP and so on) are not modelled. The commands that states added or erased inside a command run are part of that function, not separate events.
- Outcome.Bind: an actor id with no actor data also makes `$gameActors.actor` return null. The model binds the id and leaves this to the formula function.
- Reading the plugin parameters "Cycle Actors" and "Cycle Length" is left out; they are inputs of `Cycle.Update` and `Cost.ShownCosts`. A non-integer or `NaN` length is not modelled.
- `Number`/`isNaN` on tag tokens is an input function returning an integer or nothing. JavaScript's conversions (white space, the empty string, hexadecimal, fractions) are the host's. Fractional ids are not modelled.
- Outcome.ItemHit: requires that the selected participant's token is a number inside the list, and for `highest`/`lowest` that every participant's token is a number. In the source, a token such as `actor5` with fewer participants reads `.hit` of `null` and throws; the crash is not modelled. A numeric id with no actor data also gives `null` in the source, but the model reads `hit(id)` for it: actor data belongs to the host.
- Hit rates and damage values are `real`, not floating point; `NaN` and non-numeric formula results are not modelled.
- Crashes inside the engine's own rules, such as a component skill id with no skill data, belong to the host functions and are not modelled.
- A `<Dual>` tag without a value (`meta.Dual === true`) makes `split` throw; it is not modelled. A `<Dual:>` tag with an empty value counts as no tag, as in the engine.
- The `clearStates` override that `stateRemoveCommand` installs on every call is left out. It re-wraps the prototype each time, a side effect on the engine rather than a rule.
- The engine's own state erase and add are input functions on the state list.

=== FILE: basics.dfy ===
/** Failure-carrying wrappers shared by every module of the model. */
module Basics {

  /** A value that may be missing: JavaScript's `null`/`undefined`/`NaN` outcomes. */
  datatype Option<+T> = None | Some(value: T)

  /** The outcome of an operation that may throw. */
  datatype Result<+T, +E> = Ok(value: T) | Err(error: E)
}

=== FILE: battle.dfy ===
/**
 * What the multitech rules see of the host engine: battlers, skills, and the
 * engine services the plugin calls into, passed in as functions.
 */
module Battle {
  import opened Basics
  import opened Descriptor

  /** A battler: an actor with its id, or an enemy (never a multitech participant). */
  datatype Battler = Actor(id: int) | Enemy(index: int)

  /**
   * The fields of a skill the rules read. `dual` is the value of the
   * `<Dual:...>` note tag when the note has one.
   */
  datatype Skill = Skill(
    id: int,
    stypeId: int,
    dual: Option<string>,
    damageType: int,
    successRate: int,
    physical: bool)

  /** `skill.meta.Dual` is truthy: the tag is present with a non-empty value. */
  predicate IsDual(skill: Skill)
  {
    skill.dual.Some? && skill.dual.value != ""
  }

  /**
   * Engine services. `inParty(id)`: `$gameParty.members()` holds
   * `$gameActors.actor(id)`; `knows(id, s)`: that actor's `skills()` holds
   * skill `s`; `meets(b, s)`: the engine's own `meetsSkillConditions`; the
   * last four are the invoker gates of the same name.
   */
  datatype Host = Host(
    cat: Catalog,
    inParty: int -> bool,
    knows: (int, int) -> bool,
    meets: (Battler, int) -> bool,
    usableItemConditions: (Battler, int) -> bool,
    wtypeOk: (Battler, int) -> bool,
    skillSealed: (Battler, int) -> bool,
    typeSealed: (Battler, int) -> bool)

  /** The descriptor of a multitech skill, parsed afresh. */
  function DualOf(skill: Skill, host: Host): Result<Dual, ParseError>
    requires IsDual(skill)
  {
    Parse(skill.dual.value, host.cat)
  }

  /** The actor named by a token is a party member (a `NaN` token names nobody). */
  predicate Present(host: Host, t: ActorToken)
  {
    t.ActorId? && host.inParty(t.id)
  }

  /** `battler === $gameActors.actor(t)`. */
  predicate Is(b: Battler, t: ActorToken)
  {
    b.Actor? && t == ActorId(b.id)
  }

  /** The battler is one of the listed participants. */
  predicate Listed(b: Battler, d: Dual)
  {
    exists i :: 0 <= i < |d.actors| && Is(b, d.actors[i])
  }

  /** The four invoker gates on the multitech skill itself. */
  predicate Gates(host: Host, b: Battler, skill: Skill)
  {
    && host.usableItemConditions(b, skill.id)
    && host.wtypeOk(b, skill.id)
    && !host.skillSealed(b, skill.id)
    && !host.typeSealed(b, skill.stypeId)
  }
}

=== FILE: cost.dfy ===
/**
 * Paying for a multitech skill (`Game_BattlerBase.paySkillCost`) and which
 * (actor, skill) costs the skill window shows for it (`drawSkillCost`).
 * A payment is an event handed to the engine's own `paySkillCost`.
 */
module Cost {
  import opened Basics
  import opened Descriptor
  import opened Battle
  import Cycle

  /** Who pays: the actor a participant token names, or the invoker (the viewing actor, in the window). */
  datatype Payer = Participant(token: ActorToken) | Invoker

  /** One call of the engine's `paySkillCost(skill)` with `this` the payer. */
  datatype Charge = Charge(payer: Payer, skill: int)

  /** Participant `i` paying its own component skill. */
  function ComponentCharge(d: Dual, i: nat): Charge
    requires WellPaired(d) && i < |d.actors|
  {
    Charge(Participant(d.actors[i]), d.skills[i])
  }

  /** The component charges of all participants, in list order. */
  function ComponentCharges(d: Dual): (cs: seq<Charge>)
    requires WellPaired(d)
    ensures |cs| == |d.actors|
    ensures forall i :: 0 <= i < |d.actors| ==> cs[i] == ComponentCharge(d, i)
  {
    seq(|d.actors|, i requires 0 <= i < |d.actors| => ComponentCharge(d, i))
  }

  /**
   * What a multitech use costs, stated without the loop: each participant's
   * component in list order, then the multitech skill itself from an invoker
   * who is not listed.
   */
  function Settlement(d: Dual, skill: Skill, invoker: Battler): seq<Charge>
    requires WellPaired(d)
  {
    ComponentCharges(d) + (if Listed(invoker, d) then [] else [Charge(Invoker, skill.id)])
  }

  /**
   * The participant loop of `paySkillCost`: each participant pays its
   * component in list order, and `userPaid` records whether the invoker was
   * among them.
   */
  method PayComponents(d: Dual, invoker: Battler) returns (paid: seq<Charge>, userPaid: bool)
    requires WellPaired(d)
    ensures paid == ComponentCharges(d)
    ensures userPaid == Listed(invoker, d)
  {
    paid := [];
    userPaid := false;
    var i := 0;
    while i < |d.actors|
      invariant 0 <= i <= |d.actors|
      invariant paid == ComponentCharges(d)[..i]
      invariant userPaid <==> exists j :: 0 <= j < i && Is(invoker, d.actors[j])
    {
      paid := paid + [ComponentCharge(d, i)];
      if Is(invoker, d.actors[i]) {
        userPaid := true;
      }
      i := i + 1;
    }
  }

  /**
   * `paySkillCost(skill)` with `this` the invoker: the payments of a
   * multitech skill are its settlement, and a plain skill is one payment by
   * the invoker.
   */
  method PaySkillCost(skill: Skill, invoker: Battler, host: Host) returns (r: Result<seq<Charge>, ParseError>)
    ensures !IsDual(skill) ==> r == Ok([Charge(Invoker, skill.id)])
    ensures IsDual(skill) ==> (r.Err? <==> DualOf(skill, host).Err?)
    ensures IsDual(skill) && r.Ok? ==> r.value == Settlement(DualOf(skill, host).value, skill, invoker)
  {
    if IsDual(skill) {
      var parsed := DualOf(skill, host);
      if parsed.Err? {
        return Err(parsed.error);
      }
      var paid, userPaid := PayComponents(parsed.value, invoker);
      if userPaid {
        return Ok(paid);
      }
      return Ok(paid + [Charge(Invoker, skill.id)]);
    }
    return Ok([Charge(Invoker, skill.id)]);
  }

  /**
   * The shape of a settlement: one payment per participant, participant `i`
   * paying its own component at position `i` (a participant listed twice pays
   * twice), and a payment of the multitech skill by the invoker exactly when
   * the invoker is not listed, as the last one.
   */
  lemma SettlementShape(d: Dual, skill: Skill, invoker: Battler)
    requires WellPaired(d)
    ensures var paid := Settlement(d, skill, invoker);
      && |paid| == |d.actors| + (if Listed(invoker, d) then 0 else 1)
      && (forall i :: 0 <= i < |d.actors| ==> paid[i] == Charge(Participant(d.actors[i]), d.skills[i]))
      && (Charge(Invoker, skill.id) in paid <==> !Listed(invoker, d))
      && (!Listed(invoker, d) ==> paid[|paid| - 1] == Charge(Invoker, skill.id))
  {
    var paid := Settlement(d, skill, invoker);
    assert forall i :: 0 <= i < |d.actors| ==> paid[i] == ComponentCharges(d)[i];
    assert Charge(Invoker, skill.id) !in ComponentCharges(d);
  }

  /**
   * An invoker that is listed is charged exactly the participants'
   * components: it never pays for the multitech skill as well.
   */
  lemma NoDoublePayment(d: Dual, skill: Skill, invoker: Battler)
    requires WellPaired(d) && Listed(invoker, d)
    ensures Settlement(d, skill, invoker) == ComponentCharges(d)
    ensures forall c :: c in Settlement(d, skill, invoker) ==> c.payer.Participant?
  {
  }

  // ---------------------------------------------------------------------------
  // which costs the skill window shows
  // ---------------------------------------------------------------------------

  /**
   * Why `drawSkillCost` fails: the tag does not parse, or cycling is on
   * while the window's `_cyclePhase` is still `undefined` (no `update()`
   * yet), so the shown position is `NaN` and the engine reads the cost of an
   * undefined skill.
   */
  datatype DrawError = TagError(error: ParseError) | PhaseUnset

  /**
   * The (payer, skill) costs `drawSkillCost` draws for a skill, in drawing
   * order, for the actor `viewer` whose window it is. Without cycling: each
   * participant from the last to the first, then the viewer's own cost of the
   * multitech skill when the viewer is not in the tech. With cycling: the one
   * position the phase of `timer` selects. A plain skill shows its own cost.
   * The phase lies in `[0, 2520)`, as every `update()` keeps it.
   */
  function ShownCosts(skill: Skill, viewer: int, cycleActors: bool, timer: Cycle.Timer, host: Host): (r: Result<seq<Charge>, DrawError>)
    requires Cycle.PhaseOk(timer)
    ensures !IsDual(skill) ==> r == Ok([Charge(Invoker, skill.id)])
    ensures IsDual(skill) ==> (r.Err? && r.error.TagError? <==> DualOf(skill, host).Err?)
    ensures IsDual(skill) && DualOf(skill, host).Ok? ==> (r.Err? <==> cycleActors && timer.Unset?)
    ensures IsDual(skill) && DualOf(skill, host).Ok? && cycleActors && timer.Running? ==>
      var d := DualOf(skill, host).value;
      var paid := Settlement(d, skill, Actor(viewer));
      r.value == [paid[if Listed(Actor(viewer), d) then timer.phase % |paid| else (timer.phase - 1) % |paid|]]
    ensures IsDual(skill) && DualOf(skill, host).Ok? && !cycleActors ==>
      |r.value| == |Settlement(DualOf(skill, host).value, skill, Actor(viewer))|
  {
    if !IsDual(skill) then Ok([Charge(Invoker, skill.id)])
    else
      match DualOf(skill, host)
      case Err(e) => Err(TagError(e))
      case Ok(d) =>
        var inTech := ActorId(viewer) in d.actors;
        InTechIsListed(viewer, d);
        var own := if inTech then [] else [Charge(Invoker, skill.id)];
        if !cycleActors then
          Ok(Reverse(ComponentCharges(d)) + own)
        else
          match timer
          case Unset => Err(PhaseUnset)
          case Running(_, phase) => Ok([CycledCost(d, skill, viewer, phase)])
  }

  /**
   * The one cost the cycling display shows at `phase`: the cycle walks the
   * viewer's payments in the order they are paid, one per phase, the
   * viewer's own cost (when it pays one) coming just before the first
   * participant's.
   */
  function CycledCost(d: Dual, skill: Skill, viewer: int, phase: nat): (c: Charge)
    requires WellPaired(d)
    ensures var paid := Settlement(d, skill, Actor(viewer));
      |paid| > 0 && c == paid[if Listed(Actor(viewer), d) then phase % |paid| else (phase - 1) % |paid|]
  {
    var inTech := ActorId(viewer) in d.actors;
    InTechIsListed(viewer, d);
    var k := Cycle.ShownIndex(|d.actors|, inTech, phase);
    var paid := Settlement(d, skill, Actor(viewer));
    Cycle.ShownIndexRotation(|d.actors|, inTech, phase);
    if k == -1 then
      assert paid[|d.actors|] == Charge(Invoker, skill.id);
      Charge(Invoker, skill.id)
    else
      assert paid[k] == ComponentCharge(d, k);
      ComponentCharge(d, k)
  }

  function Reverse<T>(s: seq<T>): (r: seq<T>)
    ensures |r| == |s|
    ensures forall i :: 0 <= i < |s| ==> r[i] == s[|s| - 1 - i]
  {
    if |s| == 0 then [] else Reverse(s[1..]) + [s[0]]
  }

  /** The viewer is in the tech exactly when, as invoker, it is listed. */
  lemma InTechIsListed(viewer: int, d: Dual)
    ensures ActorId(viewer) in d.actors <==> Listed(Actor(viewer), d)
  {
    if ActorId(viewer) in d.actors {
      var i :| 0 <= i < |d.actors| && d.actors[i] == ActorId(viewer);
      assert Is(Actor(viewer), d.actors[i]);
    }
  }

  /**
   * Without cycling the window shows exactly what the viewing actor would pay
   * on using the skill: the participants' components (drawn last to first,
   * so they read first to last on screen) and, after them, the viewer's own
   * cost of the multitech skill exactly when the viewer would pay it.
   */
  lemma ShownMatchesPaid(skill: Skill, viewer: int, host: Host)
    requires IsDual(skill) && DualOf(skill, host).Ok?
    ensures var d := DualOf(skill, host).value;
      var paid := Settlement(d, skill, Actor(viewer));
      ShownCosts(skill, viewer, false, Cycle.Unset, host) == Ok(Reverse(paid[..|d.actors|]) + paid[|d.actors|..])
  {
    var d := DualOf(skill, host).value;
    InTechIsListed(viewer, d);
    var paid := Settlement(d, skill, Actor(viewer));
    assert paid[..|d.actors|] == ComponentCharges(d);
  }

  /**
   * With cycling, every cost the viewing actor would pay is shown at some
   * phase within one round, as long as the round fits below the wrap of the
   * phase at 2520.
   */
  lemma CycledCostsArePaid(skill: Skill, viewer: int, host: Host, timer: int)
    requires IsDual(skill) && DualOf(skill, host).Ok?
    ensures var d := DualOf(skill, host).value;
      |d.actors| < Cycle.Wrap ==>
      forall c :: c in Settlement(d, skill, Actor(viewer)) ==>
        exists p: nat :: p <= |d.actors| && ShownCosts(skill, viewer, true, Cycle.Running(timer, p), host) == Ok([c])
  {
    var d := DualOf(skill, host).value;
    InTechIsListed(viewer, d);
    var inTech := ActorId(viewer) in d.actors;
    var paid := Settlement(d, skill, Actor(viewer));
    if |d.actors| < Cycle.Wrap {
      forall c | c in paid
        ensures exists p: nat :: p <= |d.actors| && ShownCosts(skill, viewer, true, Cycle.Running(timer, p), host) == Ok([c])
      {
        var i :| 0 <= i < |paid| && paid[i] == c;
        var target := if i < |d.actors| then i else -1;
        Cycle.ShownIndexCovers(|d.actors|, inTech, target);
        var p: nat :| p < Cycle.Slots(|d.actors|, inTech) && Cycle.ShownIndex(|d.actors|, inTech, p) == target;
        assert ShownCosts(skill, viewer, true, Cycle.Running(timer, p), host) == Ok([c]);
      }
    }
  }
}

=== FILE: cycle.dfy ===
/**
 * The "Cycle Actors" display of `Window_SkillList`: a frame timer that
 * advances a phase counter, and the choice of which participant's cost the
 * phase shows.
 */
module Cycle {

  /** The phase wraps here: the least common multiple of 1..10. */
  const Wrap: nat := 2520

  /**
   * The window's `_cycleTimer`/`_cyclePhase`. `Unset` stands for both fields
   * still `undefined`; with "Cycle Actors" off they never leave that state
   * (the timer becomes `NaN`, which never reaches the length).
   */
  datatype Timer = Unset | Running(timer: int, phase: int)

  /** One `update()`: the next timer state and whether the window refreshes. */
  datatype Tick = Tick(next: Timer, refresh: bool)

  predicate PhaseOk(t: Timer)
  {
    t.Running? ==> 0 <= t.phase < Wrap
  }

  /** `update()`: (re)start a stopped timer, count one frame, and advance the phase when the timer passes the length. */
  function Update(t: Timer, cycleActors: bool, length: int): (r: Tick)
    ensures !cycleActors && t.Unset? ==> r == Tick(Unset, false)
    ensures cycleActors && (t.Unset? || t.timer >= 0) ==> r.next.Running? && r.next.timer >= 1
    ensures cycleActors && (t.Unset? || t.timer == 0) && length >= 1 ==> r == Tick(Running(1, 0), false)
    ensures cycleActors && (t.Unset? || t.timer == 0) && length <= 0 ==> r == Tick(Running(1, 1), true)
    ensures PhaseOk(t) ==> PhaseOk(r.next)
    ensures r.refresh ==> r.next.Running? && r.next.timer == 1
    ensures t.Running? && t.timer >= 1 && t.timer < length ==> r == Tick(Running(t.timer + 1, t.phase), false)
    ensures t.Running? && t.timer >= 1 && t.timer >= length && PhaseOk(t) ==> r == Tick(Running(1, (t.phase + 1) % Wrap), true)
  {
    var started := if cycleActors && (t.Unset? || t.timer == 0) then Running(0, 0) else t;
    match started
    case Unset => Tick(Unset, false)
    case Running(timer, phase) =>
      if timer + 1 >= length + 1 then
        var p := if phase + 1 >= Wrap then 0 else phase + 1;
        Tick(Running(1, p), true)
      else
        Tick(Running(timer + 1, phase), false)
  }

  /** `n` frames of `update()`: the final state and the number of refreshes. */
  function Run(t: Timer, cycleActors: bool, length: int, n: nat): (Timer, nat)
    decreases n
  {
    if n == 0 then (t, 0)
    else
      var tick := Update(t, cycleActors, length);
      var rest := Run(tick.next, cycleActors, length, n - 1);
      (rest.0, rest.1 + (if tick.refresh then 1 else 0))
  }

  /** Below the length, frames only count up the timer. */
  lemma {:induction false} RunCountsUp(timer: int, phase: int, cycleActors: bool, length: int, n: nat)
    requires 1 <= timer && timer + n <= length
    ensures Run(Running(timer, phase), cycleActors, length, n) == (Running(timer + n, phase), 0)
    decreases n
  {
    if n > 0 {
      assert Update(Running(timer, phase), cycleActors, length) == Tick(Running(timer + 1, phase), false);
      RunCountsUp(timer + 1, phase, cycleActors, length, n - 1);
    }
  }

  /**
   * The period: with a length of at least one frame, a timer just reset to 1
   * refreshes exactly once every `length` frames, and each refresh advances
   * the phase by one, modulo the wrap.
   */
  lemma {:induction false} RefreshEveryLength(phase: int, cycleActors: bool, length: int)
    requires length >= 1 && 0 <= phase < Wrap
    ensures Run(Running(1, phase), cycleActors, length, length) == (Running(1, (phase + 1) % Wrap), 1)
  {
    RunCountsUp(1, phase, cycleActors, length, length - 1);
    RunSplit(Running(1, phase), cycleActors, length, length - 1, 1);
    assert Update(Running(length, phase), cycleActors, length) == Tick(Running(1, (phase + 1) % Wrap), true);
  }

  lemma {:induction false} RunSplit(t: Timer, cycleActors: bool, length: int, m: nat, n: nat)
    ensures Run(t, cycleActors, length, m + n) ==
      (Run(Run(t, cycleActors, length, m).0, cycleActors, length, n).0,
       Run(t, cycleActors, length, m).1 + Run(Run(t, cycleActors, length, m).0, cycleActors, length, n).1)
    decreases m
  {
    if m > 0 {
      var tick := Update(t, cycleActors, length);
      RunSplit(tick.next, cycleActors, length, m - 1, n);
    }
  }

  /**
   * Which cost the window shows for a multitech skill with `n` participants
   * at phase `phase`: participant `phase mod n` when the viewing actor is in
   * the tech; otherwise `phase mod (n+1)` shifted down by one, where -1 stands
   * for the viewing actor paying the multitech skill itself.
   */
  function ShownIndex(n: nat, inTech: bool, phase: nat): (k: int)
    requires inTech ==> n > 0
    ensures -1 <= k < n
    ensures inTech ==> k >= 0
  {
    if inTech then phase % n else phase % (n + 1) - 1
  }

  /** Number of positions the display cycles through. */
  function Slots(n: nat, inTech: bool): nat
  {
    if inTech then n else n + 1
  }

  /**
   * Every position is shown: each participant index, and -1 when the viewer
   * is outside the tech, appears at some phase within one round of slots.
   */
  lemma ShownIndexCovers(n: nat, inTech: bool, k: int)
    requires inTech ==> n > 0
    requires (if inTech then 0 else -1) <= k < n
    ensures exists p: nat :: p < Slots(n, inTech) && ShownIndex(n, inTech, p) == k
  {
    var p: nat := if inTech then k else k + 1;
    assert ShownIndex(n, inTech, p) == k;
  }

  /** Consecutive phases show consecutive positions, cyclically. */
  lemma ShownIndexAdvances(n: nat, inTech: bool, phase: nat)
    requires inTech ==> n > 0
    ensures ShownIndex(n, inTech, phase + 1) ==
      (if ShownIndex(n, inTech, phase) == n - 1 then (if inTech then 0 else -1) else ShownIndex(n, inTech, phase) + 1)
  {
    ModSucc(phase, Slots(n, inTech));
  }

  /**
   * The shown position is a rotation through the slots: slot `phase mod n`
   * in the tech; outside it slot `(phase - 1) mod (n + 1)`, where the last
   * slot stands for the viewing actor's own cost.
   */
  lemma ShownIndexRotation(n: nat, inTech: bool, phase: nat)
    requires inTech ==> n > 0
    ensures var j := if inTech then phase % Slots(n, inTech) else (phase - 1) % Slots(n, inTech);
      ShownIndex(n, inTech, phase) == if !inTech && j == n then -1 else j
  {
    if !inTech {
      if phase == 0 {
        ModUnique(-1, -1, n, n + 1);
      } else {
        ModSucc(phase - 1, n + 1);
      }
    }
  }

  /** A positive multiple of `s` is at least `s`. */
  lemma MulAtLeast(d: int, s: int)
    requires d >= 1 && s > 0
    ensures d * s >= s
  {
    assert d * s == (d - 1) * s + s;
    assert (d - 1) * s >= 0;
  }

  /** Remainders are unique: `k*s + r` leaves `r` when `0 <= r < s`. */
  lemma ModUnique(x: int, k: int, r: int, s: int)
    requires s > 0 && 0 <= r < s && x == k * s + r
    ensures x % s == r
  {
    var k' := x / s;
    var r' := x % s;
    assert x == k' * s + r';
    assert (k - k') * s == k * s - k' * s;
    assert (k - k') * s == r' - r;
    if k > k' {
      MulAtLeast(k - k', s);
    } else if k < k' {
      assert (k' - k) * s == -((k - k') * s);
      MulAtLeast(k' - k, s);
    }
  }

  /** The remainder of a successor. */
  lemma ModSucc(a: nat, s: nat)
    requires s > 0
    ensures (a + 1) % s == if a % s == s - 1 then 0 else a % s + 1
  {
    var q := a / s;
    var r := a % s;
    assert a == q * s + r;
    if r == s - 1 {
      assert (q + 1) * s == q * s + s;
      ModUnique(a + 1, q + 1, 0, s);
    } else {
      ModUnique(a + 1, q, r + 1, s);
    }
  }

  /**
   * Across the wrap of the phase the display keeps its rhythm whenever the
   * number of positions divides 2520, which is every count up to ten.
   */
  lemma WrapSeamless(n: nat, inTech: bool)
    requires inTech ==> n > 0
    requires Slots(n, inTech) <= 10
    ensures ShownIndex(n, inTech, 0) ==
      (if ShownIndex(n, inTech, Wrap - 1) == n - 1 then (if inTech then 0 else -1) else ShownIndex(n, inTech, Wrap - 1) + 1)
  {
    var s := Slots(n, inTech);
    assert Wrap % s == 0;
    assert (Wrap - 1) % s == s - 1;
  }

  /**
   * With ten participants and a viewer outside the tech there are eleven
   * positions, which do not divide 2520: the phase before the wrap and the
   * phase after it both show the viewer's own cost.
   */
  lemma WrapRepeatsWithElevenSlots()
    ensures ShownIndex(10, false, Wrap - 1) == -1
    ensures ShownIndex(10, false, 0) == -1
  {
  }
}

=== FILE: descriptor.dfy ===
/**
 * The `<Dual:...>` note tag of a multitech skill and its parse
 * (`Jay.Dualtechs.dualSkillData`). The tag is re-parsed on every use, so the
 * parse is a pure function of the tag text and the skill table.
 */
module Descriptor {
  import opened Basics
  import Text

  /**
   * `Number(token)` for an actor token: an id, or `NaN` for a token that is not
   * a number. `$gameActors.actor(NaN)` is `null`, which is never a party member.
   */
  datatype ActorToken = ActorId(id: int) | NotANumber

  /** A slot of `$dataSkills`; slot 0 and unused slots hold `null`. */
  datatype SkillEntry = Vacant | Entry(id: int, name: string)

  /** The only way the parse fails: a skill name no skill carries. */
  datatype ParseError = UnknownSkillName(name: string)

  /**
   * The lookups the parse needs from the host: `Number`/`isNaN` on a token
   * (`None` when `isNaN` holds) and the skill table searched by name.
   */
  datatype Catalog = Catalog(number: string -> Option<int>, skills: seq<SkillEntry>)

  /**
   * The parsed tag: participant actors and their component skills, pairwise
   * by position, and the accuracy token.
   */
  datatype Dual = Dual(actors: seq<ActorToken>, skills: seq<int>, accType: string)

  predicate WellPaired(d: Dual) { |d.actors| == |d.skills| }

  predicate Named(e: SkillEntry, name: string) { e.Entry? && e.name == name }

  function ActorOf(token: string, number: string -> Option<int>): ActorToken
  {
    match number(token)
    case Some(n) => ActorId(n)
    case None => NotANumber
  }

  /** The id of the first skill of the table carrying `name`, if any. */
  function FirstNamed(skills: seq<SkillEntry>, name: string): (r: Option<int>)
    ensures r.None? <==> forall i :: 0 <= i < |skills| ==> !Named(skills[i], name)
    ensures r.Some? ==> exists i :: 0 <= i < |skills| && Named(skills[i], name) && skills[i].id == r.value
                                  && forall j :: 0 <= j < i ==> !Named(skills[j], name)
  {
    if |skills| == 0 then None
    else if Named(skills[0], name) then Some(skills[0].id)
    else
      var r := FirstNamed(skills[1..], name);
      assert forall i :: 1 <= i < |skills| ==> skills[i] == skills[1..][i - 1];
      if r.Some? then
        var i :| 0 <= i < |skills[1..]| && Named(skills[1..][i], name) && skills[1..][i].id == r.value
                 && forall j :: 0 <= j < i ==> !Named(skills[1..][j], name);
        assert Named(skills[i + 1], name);
        r
      else r
  }

  /**
   * A skill token: a number is taken as the skill id as it is; anything else
   * names the skill, the first one in the table with exactly that name, and
   * the parse throws when there is none.
   */
  function ResolveSkill(token: string, cat: Catalog): (r: Result<int, ParseError>)
    ensures cat.number(token).Some? ==> r == Ok(cat.number(token).value)
    ensures cat.number(token).None? && r.Ok? ==>
      exists i :: 0 <= i < |cat.skills| && Named(cat.skills[i], token) && cat.skills[i].id == r.value
                  && forall j :: 0 <= j < i ==> !Named(cat.skills[j], token)
    ensures r.Err? <==> cat.number(token).None? && forall i :: 0 <= i < |cat.skills| ==> !Named(cat.skills[i], token)
    ensures r.Err? ==> r.error == UnknownSkillName(token)
  {
    match cat.number(token)
    case Some(n) => Ok(n)
    case None =>
      match FirstNamed(cat.skills, token)
      case Some(id) => Ok(id)
      case None => Err(UnknownSkillName(token))
  }

  /** Skill token of pair `i`, resolved. */
  function PairSkill(tokens: seq<string>, i: nat, cat: Catalog): Result<int, ParseError>
    requires 2 * i + 1 < |tokens|
  {
    ResolveSkill(tokens[2 * i + 1], cat)
  }

  /**
   * The pair loop of the parse over an even number of tokens: actor `i` is
   * token `2i`, skill `i` is token `2i+1`, in order. It throws at the first
   * skill token that does not resolve.
   */
  function Pairs(tokens: seq<string>, cat: Catalog): (r: Result<(seq<ActorToken>, seq<int>), ParseError>)
    requires |tokens| % 2 == 0
    ensures r.Ok? ==> 2 * |r.value.0| == 2 * |r.value.1| == |tokens|
    ensures r.Ok? ==> forall i :: 0 <= i < |r.value.0| ==> r.value.0[i] == ActorOf(tokens[2 * i], cat.number)
    ensures r.Ok? ==> forall i :: 0 <= i < |r.value.1| ==> PairSkill(tokens, i, cat) == Ok(r.value.1[i])
    ensures r.Err? <==> exists i :: 0 <= i && 2 * i + 1 < |tokens| && PairSkill(tokens, i, cat).Err?
    ensures r.Err? ==> exists i :: 0 <= i && 2 * i + 1 < |tokens| && PairSkill(tokens, i, cat) == Err(r.error)
                                   && forall j :: 0 <= j < i ==> PairSkill(tokens, j, cat).Ok?
    decreases |tokens|
  {
    if |tokens| == 0 then Ok(([], []))
    else
      var rest := tokens[2..];
      match ResolveSkill(tokens[1], cat)
      case Err(e) =>
        assert PairSkill(tokens, 0, cat) == Err(e);
        Err(e)
      case Ok(skill) =>
        match Pairs(rest, cat)
        case Err(e) =>
          PairsErrShift(tokens, cat, e);
          Err(e)
        case Ok(pairs) =>
          var r := ([ActorOf(tokens[0], cat.number)] + pairs.0, [skill] + pairs.1);
          PairsOkShift(tokens, cat, pairs.0, pairs.1);
          Ok(r)
  }

  lemma PairsErrShift(tokens: seq<string>, cat: Catalog, e: ParseError)
    requires |tokens| >= 2 && |tokens| % 2 == 0
    requires ResolveSkill(tokens[1], cat).Ok?
    requires exists i :: 0 <= i && 2 * i + 1 < |tokens[2..]| && PairSkill(tokens[2..], i, cat) == Err(e)
                         && forall j :: 0 <= j < i ==> PairSkill(tokens[2..], j, cat).Ok?
    ensures exists i :: 0 <= i && 2 * i + 1 < |tokens| && PairSkill(tokens, i, cat) == Err(e)
                        && forall j :: 0 <= j < i ==> PairSkill(tokens, j, cat).Ok?
  {
    var rest := tokens[2..];
    var i :| 0 <= i && 2 * i + 1 < |rest| && PairSkill(rest, i, cat) == Err(e)
             && forall j :: 0 <= j < i ==> PairSkill(rest, j, cat).Ok?;
    assert PairSkill(tokens, i + 1, cat) == Err(e);
    forall j | 0 <= j < i + 1 ensures PairSkill(tokens, j, cat).Ok? {
      if j > 0 {
        assert PairSkill(tokens, j, cat) == PairSkill(rest, j - 1, cat);
      }
    }
  }

  lemma PairsOkShift(tokens: seq<string>, cat: Catalog, actors: seq<ActorToken>, skills: seq<int>)
    requires |tokens| >= 2 && |tokens| % 2 == 0
    requires ResolveSkill(tokens[1], cat).Ok?
    requires 2 * |actors| == 2 * |skills| == |tokens| - 2
    requires forall i :: 0 <= i < |actors| ==> actors[i] == ActorOf(tokens[2..][2 * i], cat.number)
    requires forall i :: 0 <= i < |skills| ==> PairSkill(tokens[2..], i, cat) == Ok(skills[i])
    ensures forall i :: 0 <= i < |actors| + 1 ==>
      ([ActorOf(tokens[0], cat.number)] + actors)[i] == ActorOf(tokens[2 * i], cat.number)
    ensures forall i :: 0 <= i < |skills| + 1 ==>
      PairSkill(tokens, i, cat) == Ok(([ResolveSkill(tokens[1], cat).value] + skills)[i])
    ensures forall i :: 0 <= i && 2 * i + 1 < |tokens| ==> PairSkill(tokens, i, cat).Ok?
  {
    var rest := tokens[2..];
    forall i | 0 < i && 2 * i + 1 < |tokens|
      ensures PairSkill(tokens, i, cat) == PairSkill(rest, i - 1, cat)
      ensures tokens[2 * i] == rest[2 * (i - 1)]
    {
    }
  }

  /**
   * `dualSkillData` after the split: an even number of tokens is all pairs
   * with accuracy token `"user"`; an odd number keeps its last token verbatim
   * as the accuracy token and pairs up the others. The pairs keep the order of
   * the tokens, and the parse fails exactly when some skill token of a pair
   * does not resolve.
   */
  function ParseTokens(tokens: seq<string>, cat: Catalog): (r: Result<Dual, ParseError>)
    ensures r.Ok? ==> WellPaired(r.value) && 2 * |r.value.actors| + |tokens| % 2 == |tokens|
    ensures r.Ok? && |tokens| % 2 == 0 ==> r.value.accType == "user"
    ensures r.Ok? && |tokens| % 2 == 1 ==> r.value.accType == tokens[|tokens| - 1]
    ensures r.Ok? ==> forall i :: 0 <= i < |r.value.actors| ==> r.value.actors[i] == ActorOf(tokens[2 * i], cat.number)
    ensures r.Ok? ==> forall i :: 0 <= i < |r.value.skills| ==> PairSkill(tokens, i, cat) == Ok(r.value.skills[i])
    ensures r.Err? <==> exists i :: 0 <= i && 2 * i + 2 <= |tokens| && PairSkill(tokens, i, cat).Err?
  {
    var n := |tokens|;
    if n % 2 == 0 then
      match Pairs(tokens, cat)
      case Err(e) => Err(e)
      case Ok(pairs) => Ok(Dual(pairs.0, pairs.1, "user"))
    else
      var body := tokens[..n - 1];
      assert forall i :: 0 <= i && 2 * i + 1 < |body| ==> PairSkill(body, i, cat) == PairSkill(tokens, i, cat);
      match Pairs(body, cat)
      case Err(e) => Err(e)
      case Ok(pairs) =>
        assert forall i :: 0 <= i < |pairs.0| ==> body[2 * i] == tokens[2 * i];
        Ok(Dual(pairs.0, pairs.1, tokens[n - 1]))
  }

  /** `dualSkillData(tag)`: the tag split on commas, then parsed as above. */
  function Parse(tag: string, cat: Catalog): Result<Dual, ParseError>
  {
    ParseTokens(Text.Split(tag, ','), cat)
  }
}

=== FILE: eligibility.dfy ===
/**
 * Whether a multitech skill is listed in an actor's skill window
 * (`Window_SkillList.includes`) and whether it can be used
 * (`Game_BattlerBase.meetsSkillConditions`).
 */
module Eligibility {
  import opened Basics
  import opened Descriptor
  import opened Battle

  // ---------------------------------------------------------------------------
  // the skill-list filter
  // ---------------------------------------------------------------------------

  /** Every participant is in the party and knows its component skill. */
  predicate AllKnown(d: Dual, host: Host)
    requires WellPaired(d)
  {
    forall i :: 0 <= i < |d.actors| ==> Present(host, d.actors[i]) && host.knows(d.actors[i].id, d.skills[i])
  }

  /** When the skill is listed, stated without the loop. */
  function Listable(item: Option<Skill>, stypeId: int, host: Host): Result<bool, ParseError>
  {
    if item.None? || item.value.stypeId != stypeId then Ok(false)
    else if !IsDual(item.value) then Ok(true)
    else
      match DualOf(item.value, host)
      case Err(e) => Err(e)
      case Ok(d) => Ok(AllKnown(d, host))
  }

  /**
   * `includes(item)`: the source's early-return loop over the participants.
   * The viewing actor is not an input: it is never consulted.
   */
  method Includes(item: Option<Skill>, stypeId: int, host: Host) returns (r: Result<bool, ParseError>)
    ensures r == Listable(item, stypeId, host)
    ensures r == Ok(true) <==>
      && item.Some? && item.value.stypeId == stypeId
      && (IsDual(item.value) ==> DualOf(item.value, host).Ok? && AllKnown(DualOf(item.value, host).value, host))
    ensures r.Err? <==> item.Some? && item.value.stypeId == stypeId && IsDual(item.value) && DualOf(item.value, host).Err?
  {
    if item.None? || item.value.stypeId != stypeId {
      return Ok(false);
    }
    var skill := item.value;
    if !IsDual(skill) {
      return Ok(true);
    }
    var parsed := DualOf(skill, host);
    if parsed.Err? {
      return Err(parsed.error);
    }
    var d := parsed.value;
    var i := 0;
    while i < |d.actors|
      invariant 0 <= i <= |d.actors|
      invariant forall j :: 0 <= j < i ==> Present(host, d.actors[j]) && host.knows(d.actors[j].id, d.skills[j])
    {
      if !Present(host, d.actors[i]) {
        return Ok(false);
      }
      if !host.knows(d.actors[i].id, d.skills[i]) {
        return Ok(false);
      }
      i := i + 1;
    }
    return Ok(true);
  }

  // ---------------------------------------------------------------------------
  // the eligibility rule
  // ---------------------------------------------------------------------------

  /** Every participant is in the party and meets the base rule for its own component skill. */
  predicate AllReady(d: Dual, host: Host)
    requires WellPaired(d)
  {
    forall i :: 0 <= i < |d.actors| ==> Present(host, d.actors[i]) && host.meets(Actor(d.actors[i].id), d.skills[i])
  }

  /**
   * The eligibility rule stated without the loop: a plain skill goes to the
   * base rule; a multitech skill is refused to enemies, needs every
   * participant ready, and then either the invoker's four gates (the invoker
   * is listed) or the base rule for the multitech skill itself (it is not).
   */
  function Eligible(skill: Skill, invoker: Battler, host: Host): Result<bool, ParseError>
  {
    if !IsDual(skill) then Ok(host.meets(invoker, skill.id))
    else if invoker.Enemy? then Ok(false)
    else
      match DualOf(skill, host)
      case Err(e) => Err(e)
      case Ok(d) =>
        Ok(AllReady(d, host) && if Listed(invoker, d) then Gates(host, invoker, skill) else host.meets(invoker, skill.id))
  }

  /**
   * The participant loop of `meetsSkillConditions`: it stops at the first
   * participant that is absent or fails the base rule for its component, and
   * checks the invoker's gates where the invoker appears in the list.
   * `listed` reports whether the invoker was met, when the loop ran through.
   */
  method ScanParticipants(d: Dual, invoker: Battler, skill: Skill, host: Host) returns (ok: bool, listed: bool)
    requires WellPaired(d)
    ensures ok <==> AllReady(d, host) && (Listed(invoker, d) ==> Gates(host, invoker, skill))
    ensures ok ==> listed == Listed(invoker, d)
  {
    listed := false;
    var i := 0;
    while i < |d.actors|
      invariant 0 <= i <= |d.actors|
      invariant forall j :: 0 <= j < i ==> Present(host, d.actors[j]) && host.meets(Actor(d.actors[j].id), d.skills[j])
      invariant listed <==> exists j :: 0 <= j < i && Is(invoker, d.actors[j])
      invariant listed ==> Gates(host, invoker, skill)
    {
      if !Present(host, d.actors[i]) {
        return false, listed;
      }
      if !host.meets(Actor(d.actors[i].id), d.skills[i]) {
        return false, listed;
      }
      if Is(invoker, d.actors[i]) {
        listed := true;
        if !Gates(host, invoker, skill) {
          return false, listed;
        }
      }
      i := i + 1;
    }
    return true, listed;
  }

  /**
   * `meetsSkillConditions(skill)` with `this` the invoker: enemies are
   * refused before the tag is read, the participant loop decides a refusal,
   * and an invoker the loop did not meet falls through to the base rule.
   */
  method MeetsSkillConditions(skill: Skill, invoker: Battler, host: Host) returns (r: Result<bool, ParseError>)
    ensures r == Eligible(skill, invoker, host)
    ensures !IsDual(skill) ==> r == Ok(host.meets(invoker, skill.id))
    ensures IsDual(skill) && invoker.Enemy? ==> r == Ok(false)
  {
    if IsDual(skill) {
      if invoker.Enemy? {
        return Ok(false);
      }
      var parsed := DualOf(skill, host);
      if parsed.Err? {
        return Err(parsed.error);
      }
      var ok, invokerListed := ScanParticipants(parsed.value, invoker, skill, host);
      if !ok {
        return Ok(false);
      }
      if invokerListed {
        return Ok(true);
      }
    }
    return Ok(host.meets(invoker, skill.id));
  }

  // ---------------------------------------------------------------------------
  // properties of the rule
  // ---------------------------------------------------------------------------

  /** The party with one actor taken out. */
  function WithoutActor(host: Host, id: int): (h: Host)
    ensures !h.inParty(id)
    ensures forall x :: x != id ==> h.inParty(x) == host.inParty(x)
  {
    host.(inParty := x => x != id && host.inParty(x))
  }

  /**
   * Taking any listed participant out of the party makes the multitech
   * skill unusable, whoever invokes it.
   */
  lemma RemovingParticipantDisables(skill: Skill, invoker: Battler, host: Host, k: nat)
    requires IsDual(skill) && DualOf(skill, host).Ok?
    requires k < |DualOf(skill, host).value.actors|
    requires DualOf(skill, host).value.actors[k].ActorId?
    ensures Eligible(skill, invoker, WithoutActor(host, DualOf(skill, host).value.actors[k].id)) == Ok(false)
  {
    var d := DualOf(skill, host).value;
    var h := WithoutActor(host, d.actors[k].id);
    assert DualOf(skill, h) == DualOf(skill, host);
    assert !Present(h, d.actors[k]);
  }

  /**
   * An invoker outside the list: usable exactly when every participant is
   * ready and the invoker passes the base rule for the multitech skill
   * (which includes paying its cost).
   */
  lemma OutsiderNeedsBaseRule(skill: Skill, invoker: Battler, host: Host)
    requires IsDual(skill) && DualOf(skill, host).Ok?
    requires invoker.Actor? && !Listed(invoker, DualOf(skill, host).value)
    ensures Eligible(skill, invoker, host) ==
            Ok(AllReady(DualOf(skill, host).value, host) && host.meets(invoker, skill.id))
  {
  }

  /**
   * A listed invoker: the base rule for the multitech skill itself is not
   * consulted (only its four gates are), unless the invoker's own component
   * is the multitech skill. Changing that one answer changes nothing.
   */
  lemma ListedIgnoresOwnBaseRule(skill: Skill, invoker: Battler, host: Host, answer: bool)
    requires IsDual(skill) && DualOf(skill, host).Ok?
    requires Listed(invoker, DualOf(skill, host).value)
    requires forall i :: 0 <= i < |DualOf(skill, host).value.actors| && Is(invoker, DualOf(skill, host).value.actors[i]) ==>
               DualOf(skill, host).value.skills[i] != skill.id
    ensures Eligible(skill, invoker, host.(meets := (b, s) => if b == invoker && s == skill.id then answer else host.meets(b, s)))
         == Eligible(skill, invoker, host)
  {
    var d := DualOf(skill, host).value;
    var h := host.(meets := (b, s) => if b == invoker && s == skill.id then answer else host.meets(b, s));
    assert DualOf(skill, h) == DualOf(skill, host);
    assert AllReady(d, h) == AllReady(d, host) by {
      forall i | 0 <= i < |d.actors| && Present(host, d.actors[i])
        ensures h.meets(Actor(d.actors[i].id), d.skills[i]) == host.meets(Actor(d.actors[i].id), d.skills[i])
      {
        if Actor(d.actors[i].id) == invoker {
          assert Is(invoker, d.actors[i]);
        }
      }
    }
  }

  /**
   * A usable multitech skill has every participant in the party and ready
   * for its component skill, and an actor as invoker.
   */
  lemma UsableImpliesReady(skill: Skill, invoker: Battler, host: Host, i: nat)
    requires IsDual(skill) && Eligible(skill, invoker, host) == Ok(true)
    requires i < |DualOf(skill, host).value.actors|
    ensures invoker.Actor?
    ensures Present(host, DualOf(skill, host).value.actors[i])
    ensures host.meets(Actor(DualOf(skill, host).value.actors[i].id), DualOf(skill, host).value.skills[i])
  {
  }
}

=== FILE: outcome.dfy ===
/**
 * The damage and hit of a multitech skill: the wrapper around the damage
 * formula (`Game_Action.evalDamageFormula`) and the choice of whose hit
 * rate a physical multitech uses (`Game_Action.itemHit`).
 */
module Outcome {
  import opened Basics
  import opened Descriptor
  import opened Battle

  // ---------------------------------------------------------------------------
  // damage
  // ---------------------------------------------------------------------------

  /** Number of participant variables a formula can name: `c` through `l`. */
  const SlotCount: nat := 10

  /**
   * The names a multitech damage formula sees: `a` the user, `b` the target,
   * and the participant slots `c`..`l`, each the id of the actor
   * `$gameActors.actor` is asked for, or `None` for `null`. A slot past the
   * participant list, or holding a token that is not a number, is `null`.
   * The variable store `v` belongs to the formula evaluator.
   */
  datatype Bindings = Bindings(a: Battler, b: Battler, slots: seq<Option<int>>)

  /** Bind the user, the target and the first ten participants. */
  function Bind(d: Dual, user: Battler, target: Battler): (bs: Bindings)
    ensures bs.a == user && bs.b == target
    ensures |bs.slots| == SlotCount
    ensures forall k :: 0 <= k < SlotCount && k < |d.actors| && d.actors[k].ActorId? ==> bs.slots[k] == Some(d.actors[k].id)
    ensures forall k :: 0 <= k < SlotCount && k < |d.actors| && d.actors[k].NotANumber? ==> bs.slots[k].None?
    ensures forall k :: |d.actors| <= k < SlotCount ==> bs.slots[k].None?
  {
    Bindings(user, target, seq(SlotCount, k requires 0 <= k < SlotCount =>
      if k < |d.actors| && d.actors[k].ActorId? then Some(d.actors[k].id) else None))
  }

  /** Damage types 3 and 4 (HP and MP recovery) count negatively. */
  predicate Recovers(damageType: int)
  {
    damageType == 3 || damageType == 4
  }

  function Max0(x: real): real
  {
    if x > 0.0 then x else 0.0
  }

  /**
   * `evalDamageFormula(target)`. A plain skill gets the engine's own result
   * `base`. For a multitech skill everything runs inside `try`: a tag that
   * does not parse or a formula that throws gives 0; otherwise the formula
   * value is clamped at 0 and then negated for a recovery type.
   * `formula` stands for evaluating the skill's formula text under the bindings.
   */
  function EvalDamage(skill: Skill, user: Battler, target: Battler, host: Host,
                      base: real, formula: Bindings -> Option<real>): (r: real)
    ensures !IsDual(skill) ==> r == base
    ensures IsDual(skill) && DualOf(skill, host).Err? ==> r == 0.0
    ensures IsDual(skill) && DualOf(skill, host).Ok? ==>
      var value := formula(Bind(DualOf(skill, host).value, user, target));
      && (value.None? ==> r == 0.0)
      && (value.Some? && !Recovers(skill.damageType) ==> r == Max0(value.value))
      && (value.Some? && Recovers(skill.damageType) ==> r == -Max0(value.value))
    ensures IsDual(skill) && Recovers(skill.damageType) ==> r <= 0.0
    ensures IsDual(skill) && !Recovers(skill.damageType) ==> r >= 0.0
  {
    if !IsDual(skill) then base
    else
      match DualOf(skill, host)
      case Err(_) => 0.0
      case Ok(d) =>
        match formula(Bind(d, user, target))
        case None => 0.0
        case Some(value) =>
          var sign := if Recovers(skill.damageType) then -1.0 else 1.0;
          Max0(value) * sign
  }

  /**
   * The clamp comes before the sign: a recovery formula that evaluates to a
   * positive amount heals that amount, and a negative one does nothing,
   * instead of turning into damage.
   */
  lemma RecoveryNeverDamages(skill: Skill, user: Battler, target: Battler, host: Host,
                             base: real, formula: Bindings -> Option<real>)
    requires IsDual(skill) && Recovers(skill.damageType) && DualOf(skill, host).Ok?
    requires formula(Bind(DualOf(skill, host).value, user, target)).Some?
    ensures var v := formula(Bind(DualOf(skill, host).value, user, target)).value;
      && (v <= 0.0 ==> EvalDamage(skill, user, target, host, base, formula) == 0.0)
      && (v > 0.0 ==> EvalDamage(skill, user, target, host, base, formula) == -v)
  {
  }

  /**
   * A formula that throws on a `null` slot (a participant past the end of the
   * list) yields 0 damage, whatever it would have computed otherwise.
   */
  lemma UnboundSlotGivesZero(skill: Skill, user: Battler, target: Battler, host: Host,
                             base: real, formula: Bindings -> Option<real>, k: nat)
    requires IsDual(skill) && DualOf(skill, host).Ok?
    requires |DualOf(skill, host).value.actors| <= k < SlotCount
    requires forall bs: Bindings :: k < |bs.slots| && bs.slots[k].None? ==> formula(bs).None?
    ensures EvalDamage(skill, user, target, host, base, formula) == 0.0
  {
    var bs := Bind(DualOf(skill, host).value, user, target);
    assert bs.slots[k].None?;
  }

  // ---------------------------------------------------------------------------
  // hit
  // ---------------------------------------------------------------------------

  /** Whose hit rate a physical multitech uses, as the accuracy token selects it. */
  datatype HitSource = UserHit | ParticipantHit(k: nat) | HighestHit | LowestHit

  /**
   * The `switch` on the accuracy token. `first`/`actor1` .. `actor10` name a
   * participant by position (`second` is `actor2`); `higher`/`highest`/`max`
   * and `lower`/`lowest`/`min` take the extremes; `user` and every other
   * token keep the user's own hit rate.
   */
  function Source(accType: string): (s: HitSource)
    ensures s.ParticipantHit? ==> s.k < SlotCount
    ensures s == ParticipantHit(0) <==> accType in {"first", "actor1"}
    ensures s == ParticipantHit(1) <==> accType in {"second", "actor2"}
    ensures s == HighestHit <==> accType in {"higher", "highest", "max"}
    ensures s == LowestHit <==> accType in {"lower", "lowest", "min"}
    ensures s == UserHit <==> accType !in KnownTokens - {"user"}
  {
    if accType == "first" || accType == "actor1" then ParticipantHit(0)
    else if accType == "second" || accType == "actor2" then ParticipantHit(1)
    else if accType == "actor3" then ParticipantHit(2)
    else if accType == "actor4" then ParticipantHit(3)
    else if accType == "actor5" then ParticipantHit(4)
    else if accType == "actor6" then ParticipantHit(5)
    else if accType == "actor7" then ParticipantHit(6)
    else if accType == "actor8" then ParticipantHit(7)
    else if accType == "actor9" then ParticipantHit(8)
    else if accType == "actor10" then ParticipantHit(9)
    else if accType == "higher" || accType == "highest" || accType == "max" then HighestHit
    else if accType == "lower" || accType == "lowest" || accType == "min" then LowestHit
    else UserHit
  }

  /** The decimal numeral of `n`, without leading zeros. */
  function Decimal(n: nat): (t: string)
    ensures |t| >= 1
    decreases n
  {
    var digit := ["0", "1", "2", "3", "4", "5", "6", "7", "8", "9"][n % 10];
    if n < 10 then digit else Decimal(n / 10) + digit
  }

  /** The ten tokens naming a participant by number, `actor1` to `actor10`. */
  const ActorNames: seq<string> :=
    ["actor1", "actor2", "actor3", "actor4", "actor5", "actor6", "actor7", "actor8", "actor9", "actor10"]

  /**
   * Participant `k` (counted from 0) is selected by `actor` followed by its
   * number counted from 1, for the first ten; by `first` for the first and
   * `second` for the second; and by nothing else.
   */
  lemma SelectsParticipant(accType: string, k: nat)
    ensures Source(accType) == ParticipantHit(k) <==>
      (k < SlotCount && accType == "actor" + Decimal(k + 1))
      || (k == 0 && accType == "first") || (k == 1 && accType == "second")
  {
    if k < SlotCount {
      DecimalSmall(k + 1);
      assert "actor" + Decimal(k + 1) == ActorNames[k];
      if Source(accType) == ParticipantHit(k) {
        SelectedByName(accType);
      }
      if accType == ActorNames[k] {
        NameSelects(k);
      }
    }
  }

  /** A token selecting participant `k` is `actor<k+1>`, or `first`/`second`. */
  lemma SelectedByName(accType: string)
    requires Source(accType).ParticipantHit?
    ensures var k := Source(accType).k;
      accType == ActorNames[k] || (k == 0 && accType == "first") || (k == 1 && accType == "second")
  {
  }

  /** `actor<k+1>` selects participant `k`. */
  lemma NameSelects(k: nat)
    requires k < SlotCount
    ensures Source(ActorNames[k]) == ParticipantHit(k)
  {
  }

  /** The numerals of 1 to 10. */
  lemma DecimalSmall(n: nat)
    requires 1 <= n <= SlotCount
    ensures Decimal(n) == ["1", "2", "3", "4", "5", "6", "7", "8", "9", "10"][n - 1]
  {
    if n == 10 {
      assert Decimal(1) == "1";
    }
  }

  /** The accuracy tokens the `switch` recognises. */
  const KnownTokens: set<string> := {
    "user", "first", "second", "actor1", "actor2", "actor3", "actor4", "actor5",
    "actor6", "actor7", "actor8", "actor9", "actor10",
    "higher", "highest", "max", "lower", "lowest", "min"}

  /**
   * The selected hit rate can be read without a `null` actor: a selected
   * participant exists, and for the extremes every participant does.
   */
  predicate Resolvable(d: Dual)
  {
    match Source(d.accType)
    case UserHit => true
    case ParticipantHit(k) => k < |d.actors| && d.actors[k].ActorId?
    case HighestHit => forall i :: 0 <= i < |d.actors| ==> d.actors[i].ActorId?
    case LowestHit => forall i :: 0 <= i < |d.actors| ==> d.actors[i].ActorId?
  }

  /**
   * The `highest` loop: starting from `start`, replace the running value by
   * every participant hit rate greater than it. The result is the largest of
   * `start` and the participants' rates, and is one of them.
   */
  function Highest(start: real, actors: seq<ActorToken>, hit: int -> real): (r: real)
    requires forall i :: 0 <= i < |actors| ==> actors[i].ActorId?
    ensures r >= start
    ensures forall i :: 0 <= i < |actors| ==> r >= hit(actors[i].id)
    ensures r == start || exists i :: 0 <= i < |actors| && r == hit(actors[i].id)
    decreases |actors|
  {
    if |actors| == 0 then start
    else
      var next := if hit(actors[0].id) > start then hit(actors[0].id) else start;
      var r := Highest(next, actors[1..], hit);
      assert forall i :: 1 <= i < |actors| ==> actors[i] == actors[1..][i - 1];
      r
  }

  /** The `lowest` loop: the smallest of `start` and the participants' rates, and one of them. */
  function Lowest(start: real, actors: seq<ActorToken>, hit: int -> real): (r: real)
    requires forall i :: 0 <= i < |actors| ==> actors[i].ActorId?
    ensures r <= start
    ensures forall i :: 0 <= i < |actors| ==> r <= hit(actors[i].id)
    ensures r == start || exists i :: 0 <= i < |actors| && r == hit(actors[i].id)
    decreases |actors|
  {
    if |actors| == 0 then start
    else
      var next := if hit(actors[0].id) < start then hit(actors[0].id) else start;
      var r := Lowest(next, actors[1..], hit);
      assert forall i :: 1 <= i < |actors| ==> actors[i] == actors[1..][i - 1];
      r
  }

  /**
   * The hit rate a physical multitech uses: the user's (`userHit`), a
   * participant's, or the extreme over the user and all participants.
   */
  function HitRate(d: Dual, userHit: real, hit: int -> real): (r: real)
    requires Resolvable(d)
    ensures Source(d.accType) == UserHit ==> r == userHit
    ensures Source(d.accType).ParticipantHit? ==> r == hit(d.actors[Source(d.accType).k].id)
    ensures Source(d.accType) == HighestHit ==> r >= userHit
    ensures Source(d.accType) == LowestHit ==> r <= userHit
  {
    match Source(d.accType)
    case UserHit => userHit
    case ParticipantHit(k) => hit(d.actors[k].id)
    case HighestHit => Highest(userHit, d.actors, hit)
    case LowestHit => Lowest(userHit, d.actors, hit)
  }

  /** `itemHit` reads the tag only for a physical multitech skill. */
  predicate HitDefined(skill: Skill, host: Host)
  {
    skill.physical && IsDual(skill) && DualOf(skill, host).Ok? ==> Resolvable(DualOf(skill, host).value)
  }

  /**
   * `itemHit(target)`: the success rate as a fraction, times the chosen hit
   * rate for a physical skill. A plain physical skill uses the user's hit
   * rate; a non-physical skill never reads the tag.
   */
  function ItemHit(skill: Skill, userHit: real, hit: int -> real, host: Host): (r: Result<real, ParseError>)
    requires HitDefined(skill, host)
    ensures !skill.physical ==> r == Ok(skill.successRate as real * 0.01)
    ensures skill.physical && !IsDual(skill) ==> r == Ok(skill.successRate as real * 0.01 * userHit)
    ensures skill.physical && IsDual(skill) ==> (r.Err? <==> DualOf(skill, host).Err?)
    ensures skill.physical && IsDual(skill) && r.Ok? ==>
      r.value == skill.successRate as real * 0.01 * HitRate(DualOf(skill, host).value, userHit, hit)
  {
    if !skill.physical then Ok(skill.successRate as real * 0.01)
    else if !IsDual(skill) then Ok(skill.successRate as real * 0.01 * userHit)
    else
      match DualOf(skill, host)
      case Err(e) => Err(e)
      case Ok(d) => Ok(skill.successRate as real * 0.01 * HitRate(d, userHit, hit))
  }

  /**
   * `highest` picks the best hit rate among the user and the participants:
   * it is at least every one of them and equal to one of them.
   */
  lemma HighestIsMaximum(d: Dual, userHit: real, hit: int -> real)
    requires Source(d.accType) == HighestHit && Resolvable(d)
    ensures HitRate(d, userHit, hit) >= userHit
    ensures forall i :: 0 <= i < |d.actors| ==> HitRate(d, userHit, hit) >= hit(d.actors[i].id)
    ensures HitRate(d, userHit, hit) == userHit ||
            exists i :: 0 <= i < |d.actors| && HitRate(d, userHit, hit) == hit(d.actors[i].id)
  {
  }

  /** `lowest` picks the worst hit rate among the user and the participants. */
  lemma LowestIsMinimum(d: Dual, userHit: real, hit: int -> real)
    requires Source(d.accType) == LowestHit && Resolvable(d)
    ensures HitRate(d, userHit, hit) <= userHit
    ensures forall i :: 0 <= i < |d.actors| ==> HitRate(d, userHit, hit) <= hit(d.actors[i].id)
    ensures HitRate(d, userHit, hit) == userHit ||
            exists i :: 0 <= i < |d.actors| && HitRate(d, userHit, hit) == hit(d.actors[i].id)
  {
  }

  /**
   * An example: two participants with hit rates 0.8 and 0.95, a user
   * with 0.8, success rate 90 and `highest`: the hit chance is 0.855.
   */
  lemma HighestExample(hit: int -> real)
    requires hit(1) == 0.8 && hit(2) == 0.95
    ensures var d := Dual([ActorId(1), ActorId(2)], [3, 5], "highest");
      HitRate(d, 0.8, hit) == 0.95 &&
      90 as real * 0.01 * HitRate(d, 0.8, hit) == 0.855
  {
    var d := Dual([ActorId(1), ActorId(2)], [3, 5], "highest");
    assert Source("highest") == HighestHit;
    assert Highest(0.8, d.actors, hit) == 0.95;
  }
}

=== FILE: state_commands.dfy ===
/**
 * Note commands of states (StateAddRemoveCommand): `onadd:` lines run when a
 * state is newly added to a battler, `onremove:` lines when it is erased.
 * Running a command (`eval` with `this` the battler) is an event of the
 * model; its effect is the engine's.
 */
module StateCommands {
  import opened Basics
  import Text

  const AddKey: string := "onadd:"
  const RemoveKey: string := "onremove:"

  /** Number of lines in which the key occurs. */
  function KeyLines(lines: seq<string>, key: string): nat
  {
    if |lines| == 0 then 0
    else (if Text.HasKey(lines[0], key) then 1 else 0) + KeyLines(lines[1..], key)
  }

  /**
   * The `forEach` over the lines: one command per line holding the key, in
   * line order, each the text the regular expression captures.
   */
  function Commands(lines: seq<string>, key: string): (cmds: seq<string>)
    ensures |cmds| == KeyLines(lines, key)
  {
    if |lines| == 0 then []
    else
      match Text.Extract(lines[0], key)
      case Some(c) => [c] + Commands(lines[1..], key)
      case None => Commands(lines[1..], key)
  }

  /** Every command is the capture of one of the lines. */
  lemma {:induction false} CommandsAreCaptures(lines: seq<string>, key: string)
    ensures forall c :: c in Commands(lines, key) ==>
      exists i :: 0 <= i < |lines| && Text.Extract(lines[i], key) == Some(c)
    decreases |lines|
  {
    if |lines| > 0 {
      CommandsAreCaptures(lines[1..], key);
      forall c | c in Commands(lines, key)
        ensures exists i :: 0 <= i < |lines| && Text.Extract(lines[i], key) == Some(c)
      {
        if c !in Commands(lines[1..], key) {
          assert Text.Extract(lines[0], key) == Some(c);
        } else {
          var j :| 0 <= j < |lines[1..]| && Text.Extract(lines[1..][j], key) == Some(c);
          assert lines[j + 1] == lines[1..][j];
        }
      }
    }
  }

  /** The command one line contributes. */
  function LineCommand(line: string, key: string): seq<string>
  {
    match Text.Extract(line, key)
    case Some(c) => [c]
    case None => []
  }

  /** Commands of a non-empty block: the first line's, then the rest's. */
  lemma CommandsCons(lines: seq<string>, key: string)
    requires |lines| > 0
    ensures Commands(lines, key) == LineCommand(lines[0], key) + Commands(lines[1..], key)
  {
  }

  /** Commands keep line order: the commands of two blocks of lines are those of the first, then those of the second. */
  lemma {:induction false} CommandsAppend(a: seq<string>, b: seq<string>, key: string)
    ensures Commands(a + b, key) == Commands(a, key) + Commands(b, key)
    decreases |a|
  {
    if |a| == 0 {
      assert a + b == b;
    } else {
      var ab := a + b;
      var head := LineCommand(a[0], key);
      calc {
        Commands(ab, key);
      == { CommandsCons(ab, key); assert ab[0] == a[0]; }
        head + Commands(ab[1..], key);
      == { assert ab[1..] == a[1..] + b; }
        head + Commands(a[1..] + b, key);
      == { CommandsAppend(a[1..], b, key); }
        head + (Commands(a[1..], key) + Commands(b, key));
      ==
        (head + Commands(a[1..], key)) + Commands(b, key);
      == { CommandsCons(a, key); }
        Commands(a, key) + Commands(b, key);
      }
    }
  }

  /** A single line yields its capture when it holds the key, and nothing otherwise. */
  lemma CommandsOfLine(line: string, key: string)
    ensures Text.HasKey(line, key) ==> Commands([line], key) == [Text.Extract(line, key).value]
    ensures !Text.HasKey(line, key) ==> Commands([line], key) == []
  {
  }

  /** `stateAddCommand`/`stateRemoveCommand`: the note split into lines, then the commands under the key. */
  function NoteCommands(note: string, key: string): seq<string>
  {
    Commands(Text.Lines(note), key)
  }

  /**
   * A note written as lines separated by any runs of CR/LF yields one command
   * per line holding the key, in line order, whatever the separators.
   */
  lemma NoteCommandsOfLines(lines: seq<string>, seps: seq<string>, key: string)
    requires |seps| + 1 == |lines|
    requires forall i :: 0 <= i < |lines| ==> Text.NoBreak(lines[i])
    requires forall i :: 0 < i < |lines| - 1 ==> lines[i] != ""
    requires forall i :: 0 <= i < |seps| ==> seps[i] != "" && Text.AllBreaks(seps[i])
    ensures NoteCommands(Text.Interleave(lines, seps), key) == Commands(lines, key)
  {
    Text.LinesOfInterleave(lines, seps);
  }

  /**
   * A line without `onadd:` never yields an add command, even when it holds
   * `onremove:`; and the other way round.
   */
  lemma KeysAreSeparate(line: string)
    ensures !Text.HasKey(line, AddKey) ==> Commands([line], AddKey) == []
    ensures !Text.HasKey(line, RemoveKey) ==> Commands([line], RemoveKey) == []
  {
    CommandsOfLine(line, AddKey);
    CommandsOfLine(line, RemoveKey);
  }


  // ---------------------------------------------------------------------------
  // when the commands run
  // ---------------------------------------------------------------------------

  /**
   * What happens, in order: a command runs to completion, a command throws,
   * or the engine's own erase/add does its work.
   */
  datatype Event = Ran(command: string) | Threw(command: string) | BaseErase(stateId: int) | BaseAdd(stateId: int)

  /**
   * What running one command (`eval` with `this` the battler) does to the
   * battler's `_states`, everything it triggers included (a command may add
   * or erase states, which runs their own commands): it completes, or it
   * throws, leaving `_states` as it was at the throw.
   */
  datatype Effect = Completed(states: seq<int>) | Raised(states: seq<int>)

  /** The battler's `_states` after the call, the events of the call, and whether the call ended by throwing. */
  datatype Step = Step(states: seq<int>, events: seq<Event>, threw: bool)

  /** Running one command on the battler with the given `_states`. */
  type Runner = (seq<int>, string) -> Effect

  /** Commands that never throw. */
  ghost predicate NeverThrows(run: Runner)
  {
    forall s, c :: run(s, c).Completed?
  }

  /** Commands that leave `_states` alone. */
  ghost predicate KeepsStates(run: Runner)
  {
    forall s, c :: run(s, c).states == s
  }

  function RanAll(cmds: seq<string>): (es: seq<Event>)
    ensures |es| == |cmds|
    ensures forall i :: 0 <= i < |cmds| ==> es[i] == Ran(cmds[i])
  {
    seq(|cmds|, i requires 0 <= i < |cmds| => Ran(cmds[i]))
  }

  /** The commands that ran to completion, in order. */
  function RanCommands(events: seq<Event>): seq<string>
  {
    if |events| == 0 then []
    else (if events[0].Ran? then [events[0].command] else []) + RanCommands(events[1..])
  }

  lemma {:induction false} RanCommandsAppend(a: seq<Event>, b: seq<Event>)
    ensures RanCommands(a + b) == RanCommands(a) + RanCommands(b)
    decreases |a|
  {
    if |a| == 0 {
      assert a + b == b;
    } else {
      assert (a + b)[1..] == a[1..] + b;
      RanCommandsAppend(a[1..], b);
    }
  }

  lemma {:induction false} RanCommandsOfRanAll(cmds: seq<string>)
    ensures RanCommands(RanAll(cmds)) == cmds
    decreases |cmds|
  {
    if |cmds| > 0 {
      assert RanAll(cmds)[1..] == RanAll(cmds[1..]);
      RanCommandsOfRanAll(cmds[1..]);
    }
  }

  /**
   * The `forEach` running the commands of a note in order, each on the
   * `_states` the previous one left. The first command that throws ends the
   * loop, and the exception leaves the call: the commands after it never run.
   */
  function RunAll(states: seq<int>, cmds: seq<string>, run: Runner): (r: Step)
    ensures !r.threw ==> r.events == RanAll(cmds)
    ensures r.threw ==> (1 <= |r.events| <= |cmds|
      && r.events == RanAll(cmds[..|r.events| - 1]) + [Threw(cmds[|r.events| - 1])])
    ensures forall i :: 0 <= i < |r.events| ==> r.events[i].Ran? || r.events[i].Threw?
    ensures NeverThrows(run) ==> !r.threw
    ensures KeepsStates(run) ==> r.states == states
    decreases |cmds|
  {
    if |cmds| == 0 then Step(states, [], false)
    else
      match run(states, cmds[0])
      case Raised(s) =>
        assert RanAll(cmds[..0]) == [];
        Step(s, [Threw(cmds[0])], true)
      case Completed(s) =>
        var rest := RunAll(s, cmds[1..], run);
        var r := Step(rest.states, [Ran(cmds[0])] + rest.events, rest.threw);
        assert !r.threw ==> r.events == RanAll(cmds);
        assert r.threw ==> r.events[..|r.events| - 1] == RanAll(cmds[..|r.events| - 1]);
        r
  }

  /**
   * One command: it completes and is recorded as run, or it throws; either
   * way `_states` is what the command left.
   */
  lemma RunOne(states: seq<int>, c: string, run: Runner)
    ensures RunAll(states, [c], run) ==
      match run(states, c)
      case Completed(s) => Step(s, [Ran(c)], false)
      case Raised(s) => Step(s, [Threw(c)], true)
  {
  }

  /**
   * The commands run one after another: running `a + b` runs `a`, and, when
   * no command of `a` throws, then runs `b` on the `_states` that `a` left.
   */
  lemma {:induction false} RunAllAppend(states: seq<int>, a: seq<string>, b: seq<string>, run: Runner)
    ensures var first := RunAll(states, a, run);
      var second := RunAll(first.states, b, run);
      RunAll(states, a + b, run) ==
        if first.threw then first else Step(second.states, first.events + second.events, second.threw)
    decreases |a|
  {
    if |a| == 0 {
      assert a + b == b;
    } else {
      assert (a + b)[0] == a[0];
      assert (a + b)[1..] == a[1..] + b;
      match run(states, a[0])
      case Raised(_) =>
      case Completed(s) =>
        RunAllAppend(s, a[1..], b, run);
        var rest := RunAll(s, a[1..], run);
        var second := RunAll(rest.states, b, run);
        assert [Ran(a[0])] + (rest.events + second.events) == ([Ran(a[0])] + rest.events) + second.events;
    }
  }

  /** Completed commands before a throw are a proper prefix of the commands. */
  lemma ThrownPrefix(states: seq<int>, cmds: seq<string>, run: Runner)
    ensures var r := RunAll(states, cmds, run);
      (!r.threw ==> RanCommands(r.events) == cmds) && (r.threw ==> RanCommands(r.events) < cmds)
  {
    var r := RunAll(states, cmds, run);
    if r.threw {
      var k := |r.events| - 1;
      RanCommandsAppend(RanAll(cmds[..k]), [Threw(cmds[k])]);
      RanCommandsOfRanAll(cmds[..k]);
      assert RanCommands(r.events) == cmds[..k];
    } else {
      RanCommandsOfRanAll(cmds);
    }
  }

  /**
   * `stateRemoveCommand` followed by the engine's erase: the commands run in
   * order, and the erase happens on the list they leave, unless one throws.
   */
  function RemoveThenErase(states: seq<int>, stateId: int, cmds: seq<string>, run: Runner,
                           erase: (seq<int>, int) -> seq<int>): (r: Step)
    ensures r.threw == RunAll(states, cmds, run).threw
    ensures r.events == RunAll(states, cmds, run).events + (if r.threw then [] else [BaseErase(stateId)])
    ensures r.threw <==> BaseErase(stateId) !in r.events
    ensures r.threw ==> |r.events| >= 1 && r.events[|r.events| - 1].Threw?
    ensures !r.threw ==> (|r.events| >= 1 && r.events[|r.events| - 1] == BaseErase(stateId)
      && forall i :: 0 <= i < |r.events| - 1 ==> r.events[i].Ran?)
    ensures !r.threw ==> RanCommands(r.events) == cmds
    ensures r.threw ==> RanCommands(r.events) < cmds
    ensures r.states == if r.threw then RunAll(states, cmds, run).states else erase(RunAll(states, cmds, run).states, stateId)
    ensures NeverThrows(run) ==> !r.threw
    ensures KeepsStates(run) ==> r.states == if r.threw then states else erase(states, stateId)
  {
    var ran := RunAll(states, cmds, run);
    ThrownPrefix(states, cmds, run);
    if ran.threw then
      ran
    else
      RanCommandsAppend(ran.events, [BaseErase(stateId)]);
      Step(erase(ran.states, stateId), ran.events + [BaseErase(stateId)], false)
  }

  /**
   * `eraseState(stateId)`: when the state is in `_states` its remove commands
   * run first, then the engine erases it (`erase` is the engine's own
   * `eraseState` on the list the commands left); an absent state runs
   * nothing. A throwing command skips the remaining commands and the erase.
   */
  function EraseState(states: seq<int>, stateId: int, note: int -> string, run: Runner,
                      erase: (seq<int>, int) -> seq<int>): (r: Step)
    ensures r.threw <==> BaseErase(stateId) !in r.events
    ensures r.threw ==> stateId in states && |r.events| >= 1 && r.events[|r.events| - 1].Threw?
    ensures !r.threw ==> (|r.events| >= 1 && r.events[|r.events| - 1] == BaseErase(stateId)
      && forall i :: 0 <= i < |r.events| - 1 ==> r.events[i].Ran?)
    ensures !r.threw ==> RanCommands(r.events) == if stateId in states then NoteCommands(note(stateId), RemoveKey) else []
    ensures r.threw ==> RanCommands(r.events) < NoteCommands(note(stateId), RemoveKey)
    ensures NeverThrows(run) ==> !r.threw
    ensures stateId !in states ==> r == Step(erase(states, stateId), [BaseErase(stateId)], false)
    ensures stateId in states ==> var ran := RunAll(states, NoteCommands(note(stateId), RemoveKey), run);
      r.threw == ran.threw && r.events == ran.events + (if r.threw then [] else [BaseErase(stateId)])
    ensures stateId in states ==> var ran := RunAll(states, NoteCommands(note(stateId), RemoveKey), run);
      r.states == if r.threw then ran.states else erase(ran.states, stateId)
    ensures KeepsStates(run) ==> r.states == if r.threw then states else erase(states, stateId)
  {
    if stateId !in states then
      Step(erase(states, stateId), [BaseErase(stateId)], false)
    else
      RemoveThenErase(states, stateId, NoteCommands(note(stateId), RemoveKey), run, erase)
  }

  /**
   * `addNewState(stateId)`: the engine adds the state (`add` is the engine's
   * own `addNewState` on the list); its add commands then run exactly when
   * the state was absent before and is present after. A throwing command
   * skips the remaining commands; the add has already happened.
   */
  function AddNewState(states: seq<int>, stateId: int, note: int -> string, run: Runner,
                       add: (seq<int>, int) -> seq<int>): (r: Step)
    ensures |r.events| >= 1 && r.events[0] == BaseAdd(stateId)
    ensures forall i :: 0 < i < |r.events| ==> r.events[i].Ran? || r.events[i].Threw?
    ensures r.threw ==> stateId !in states && stateId in add(states, stateId) && r.events[|r.events| - 1].Threw?
    ensures !r.threw ==>
      RanCommands(r.events) == (if stateId !in states && stateId in add(states, stateId) then NoteCommands(note(stateId), AddKey) else [])
    ensures r.threw == (stateId !in states && stateId in add(states, stateId)
      && RunAll(add(states, stateId), NoteCommands(note(stateId), AddKey), run).threw)
    ensures stateId !in states && stateId in add(states, stateId) ==>
      r.events == [BaseAdd(stateId)] + RunAll(add(states, stateId), NoteCommands(note(stateId), AddKey), run).events
    ensures !r.threw ==> forall i :: 0 < i < |r.events| ==> r.events[i].Ran?
    ensures r.threw ==> RanCommands(r.events) < NoteCommands(note(stateId), AddKey)
    ensures r.states == if stateId !in states && stateId in add(states, stateId)
      then RunAll(add(states, stateId), NoteCommands(note(stateId), AddKey), run).states
      else add(states, stateId)
    ensures NeverThrows(run) ==> !r.threw
    ensures KeepsStates(run) ==> r.states == add(states, stateId)
  {
    var after := add(states, stateId);
    if stateId !in states && stateId in after then
      var cmds := NoteCommands(note(stateId), AddKey);
      var ran := RunAll(after, cmds, run);
      ThrownPrefix(after, cmds, run);
      RanCommandsAppend([BaseAdd(stateId)], ran.events);
      Step(ran.states, [BaseAdd(stateId)] + ran.events, ran.threw)
    else
      Step(after, [BaseAdd(stateId)], false)
  }

  /**
   * Adding a state the battler already has runs no command and cannot
   * throw: only the engine's add happens.
   */
  lemma ReAddRunsNothing(states: seq<int>, stateId: int, note: int -> string, run: Runner, add: (seq<int>, int) -> seq<int>)
    requires stateId in states
    ensures AddNewState(states, stateId, note, run, add) == Step(add(states, stateId), [BaseAdd(stateId)], false)
  {
  }

  /**
   * A remove command that throws leaves the state where it was: the engine's
   * erase never runs, and when the commands leave `_states` alone the state
   * is still there.
   */
  lemma ThrowingRemoveKeepsState(states: seq<int>, stateId: int, note: int -> string, run: Runner,
                                 erase: (seq<int>, int) -> seq<int>)
    ensures var r := EraseState(states, stateId, note, run, erase);
      stateId in states && RunAll(states, NoteCommands(note(stateId), RemoveKey), run).threw ==>
        r.threw && BaseErase(stateId) !in r.events && (KeepsStates(run) ==> r.states == states && stateId in r.states)
  {
  }

  /**
   * Erasing twice runs the remove commands at most once: when the engine's
   * erase takes the state out of any list, a second erase after a first that
   * did not throw runs nothing, whatever the commands did to `_states`.
   */
  lemma EraseTwiceRunsOnce(states: seq<int>, stateId: int, note: int -> string, run: Runner,
                           erase: (seq<int>, int) -> seq<int>)
    requires forall s :: stateId !in erase(s, stateId)
    ensures var first := EraseState(states, stateId, note, run, erase);
      !first.threw ==> RanCommands(EraseState(first.states, stateId, note, run, erase).events) == []
  {
    var first := EraseState(states, stateId, note, run, erase);
    if !first.threw && stateId in states {
      var ran := RunAll(states, NoteCommands(note(stateId), RemoveKey), run);
      assert first.states == erase(ran.states, stateId);
    }
  }

  /**
   * An add command that takes its own state off again (`this.removeState`
   * of the same id) leaves nothing for a later erase: that erase runs no
   * remove command.
   */
  lemma SelfRemovingAddLeavesNothing(states: seq<int>, stateId: int, note: int -> string, run: Runner,
                                     add: (seq<int>, int) -> seq<int>, erase: (seq<int>, int) -> seq<int>)
    requires stateId !in AddNewState(states, stateId, note, run, add).states
    ensures var added := AddNewState(states, stateId, note, run, add);
      var erased := EraseState(added.states, stateId, note, run, erase);
      !erased.threw && erased.events == [BaseErase(stateId)]
  {
  }

  /**
   * With commands that complete and leave `_states` alone, a fresh add
   * followed by an erase runs the add commands, then the remove commands,
   * each exactly once and in note order.
   */
  lemma AddThenErase(states: seq<int>, stateId: int, note: int -> string, run: Runner,
                     add: (seq<int>, int) -> seq<int>, erase: (seq<int>, int) -> seq<int>)
    requires NeverThrows(run) && KeepsStates(run)
    requires stateId !in states && stateId in add(states, stateId)
    ensures var added := AddNewState(states, stateId, note, run, add);
      var erased := EraseState(added.states, stateId, note, run, erase);
      RanCommands(added.events + erased.events) ==
        NoteCommands(note(stateId), AddKey) + NoteCommands(note(stateId), RemoveKey)
  {
    var added := AddNewState(states, stateId, note, run, add);
    var erased := EraseState(added.states, stateId, note, run, erase);
    RanCommandsAppend(added.events, erased.events);
  }
}

=== FILE: text.dfy ===
/**
 * String handling used by the plugins: `String.prototype.split` on a single
 * character, `split(/[\r\n]+/)`, and the pieces of a JavaScript regular
 * expression `key\s*(.*)` with the `i` flag.
 */
module Text {
  import opened Basics

  // ---------------------------------------------------------------------------
  // split on one separator character
  // ---------------------------------------------------------------------------

  /** Index of the first occurrence of `c` in `s`. */
  function IndexOf(s: string, c: char): (k: nat)
    requires c in s
    ensures k < |s| && s[k] == c && c !in s[..k]
  {
    if s[0] == c then 0
    else
      var k := 1 + IndexOf(s[1..], c);
      assert s[..k] == [s[0]] + s[1..][..k - 1];
      k
  }

  /** The pieces glued back together with the separator between them. */
  function Join(parts: seq<string>, sep: char): string
  {
    if |parts| == 0 then ""
    else if |parts| == 1 then parts[0]
    else parts[0] + [sep] + Join(parts[1..], sep)
  }

  /**
   * `s.split(sep)` for a one-character separator: always at least one piece,
   * no piece holds the separator, and joining the pieces gives back `s`.
   */
  function Split(s: string, sep: char): (parts: seq<string>)
    ensures |parts| >= 1
    ensures forall i :: 0 <= i < |parts| ==> sep !in parts[i]
    ensures Join(parts, sep) == s
    decreases |s|
  {
    if sep !in s then [s]
    else
      var k := IndexOf(s, sep);
      var rest := Split(s[k + 1..], sep);
      assert s == s[..k] + [sep] + s[k + 1..];
      [s[..k]] + rest
  }

  /** The first separator of `p + [c] + q` is the one after `p` when `p` has none. */
  lemma {:induction false} IndexOfAfter(p: string, c: char, q: string)
    requires c !in p
    ensures c in p + [c] + q && IndexOf(p + [c] + q, c) == |p|
    decreases |p|
  {
    var s := p + [c] + q;
    assert s[|p|] == c;
    if |p| > 0 {
      assert s[0] == p[0];
      assert s[1..] == p[1..] + [c] + q;
      IndexOfAfter(p[1..], c, q);
    }
  }

  /**
   * The pieces are determined by the two properties `Split` ensures: any
   * separator-free sequence of pieces that joins to `s` is `Split(s, sep)`.
   */
  lemma {:induction false} SplitUnique(parts: seq<string>, sep: char)
    requires |parts| >= 1
    requires forall i :: 0 <= i < |parts| ==> sep !in parts[i]
    ensures Split(Join(parts, sep), sep) == parts
    decreases |parts|
  {
    var s := Join(parts, sep);
    if |parts| == 1 {
      assert s == parts[0];
    } else {
      var tail := parts[1..];
      assert forall i :: 0 <= i < |tail| ==> sep !in tail[i] by {
        forall i | 0 <= i < |tail| ensures sep !in tail[i] {
          assert tail[i] == parts[i + 1];
        }
      }
      assert s == parts[0] + [sep] + Join(tail, sep);
      assert s[|parts[0]|] == sep;
      IndexOfAfter(parts[0], sep, Join(tail, sep));
      var k := IndexOf(s, sep);
      assert k == |parts[0]|;
      assert s[..k] == parts[0];
      assert s[k + 1..] == Join(tail, sep);
      SplitUnique(tail, sep);
      assert Split(s, sep) == [parts[0]] + tail;
    }
  }

  // ---------------------------------------------------------------------------
  // split(/[\r\n]+/)
  // ---------------------------------------------------------------------------

  predicate IsBreak(c: char) { c == '\r' || c == '\n' }

  predicate NoBreak(s: string) { forall i :: 0 <= i < |s| ==> !IsBreak(s[i]) }

  predicate AllBreaks(s: string) { forall i :: 0 <= i < |s| ==> IsBreak(s[i]) }

  /** Index of the first CR or LF in `s`, or `|s|` when there is none. */
  function FirstBreak(s: string): (k: nat)
    ensures k <= |s|
    ensures NoBreak(s[..k])
    ensures k < |s| ==> IsBreak(s[k])
  {
    if |s| == 0 then 0
    else if IsBreak(s[0]) then 0
    else
      var k := 1 + FirstBreak(s[1..]);
      assert s[..k] == [s[0]] + s[1..][..k - 1];
      k
  }

  /** End of the run of CR/LF characters that starts at `i`. */
  function RunEnd(s: string, i: nat): (j: nat)
    requires i <= |s|
    ensures i <= j <= |s|
    ensures AllBreaks(s[i..j])
    ensures j < |s| ==> !IsBreak(s[j])
    decreases |s| - i
  {
    if i == |s| || !IsBreak(s[i]) then i
    else
      var j := RunEnd(s, i + 1);
      assert s[i..j] == [s[i]] + s[i + 1..j];
      j
  }

  /** The characters of `s` that are neither CR nor LF, in order. */
  function Unbroken(s: string): (r: string)
    ensures NoBreak(r)
  {
    if |s| == 0 then ""
    else if IsBreak(s[0]) then Unbroken(s[1..])
    else [s[0]] + Unbroken(s[1..])
  }

  lemma {:induction false} UnbrokenAppend(a: string, b: string)
    ensures Unbroken(a + b) == Unbroken(a) + Unbroken(b)
    decreases |a|
  {
    if |a| == 0 {
      assert a + b == b;
    } else {
      assert (a + b)[1..] == a[1..] + b;
      UnbrokenAppend(a[1..], b);
    }
  }

  lemma {:induction false} UnbrokenOfNoBreak(s: string)
    requires NoBreak(s)
    ensures Unbroken(s) == s
    decreases |s|
  {
    if |s| > 0 {
      UnbrokenOfNoBreak(s[1..]);
    }
  }

  lemma {:induction false} UnbrokenOfBreaks(s: string)
    requires AllBreaks(s)
    ensures Unbroken(s) == ""
    decreases |s|
  {
    if |s| > 0 {
      UnbrokenOfBreaks(s[1..]);
    }
  }

  function Concat(lines: seq<string>): string
  {
    if |lines| == 0 then "" else lines[0] + Concat(lines[1..])
  }

  /**
   * `s.split(/[\r\n]+/)`: the note cut at every maximal run of CR/LF.
   * No line holds a break, only the first and the last line may be empty,
   * the first line is the text before the first break, and nothing but the
   * breaks is lost.
   */
  function Lines(s: string): (lines: seq<string>)
    ensures |lines| >= 1
    ensures forall i :: 0 <= i < |lines| ==> NoBreak(lines[i])
    ensures forall i :: 0 < i < |lines| - 1 ==> lines[i] != ""
    ensures lines[0] == s[..FirstBreak(s)]
    ensures Concat(lines) == Unbroken(s)
    decreases |s|
  {
    var k := FirstBreak(s);
    if k == |s| then
      assert s[..k] == s;
      UnbrokenOfNoBreak(s);
      assert Concat([s]) == s;
      [s]
    else
      var j := RunEnd(s, k);
      var rest := Lines(s[j..]);
      FirstLineOfRest(s[j..], rest);
      UnbrokenAround(s, k, j);
      var lines := [s[..k]] + rest;
      assert lines[1..] == rest;
      lines
  }

  /** A line followed by more lines cannot be empty when its text starts with a non-break. */
  lemma FirstLineOfRest(s: string, lines: seq<string>)
    requires s == "" || !IsBreak(s[0])
    requires |lines| >= 1 && lines[0] == s[..FirstBreak(s)]
    requires |lines| > 1 ==> s != ""
    ensures |lines| > 1 ==> lines[0] != ""
  {
  }

  /** Dropping a break-free prefix and the run of breaks after it. */
  lemma UnbrokenAround(s: string, k: nat, j: nat)
    requires k <= j <= |s|
    requires NoBreak(s[..k]) && AllBreaks(s[k..j])
    ensures Unbroken(s) == s[..k] + Unbroken(s[j..])
  {
    assert s == s[..k] + s[k..j] + s[j..];
    UnbrokenAppend(s[..k] + s[k..j], s[j..]);
    UnbrokenAppend(s[..k], s[k..j]);
    UnbrokenOfNoBreak(s[..k]);
    UnbrokenOfBreaks(s[k..j]);
  }

  /** The first break of `a + b` is at `|a|` when `a` has none and `b` starts with one (or is empty). */
  lemma {:induction false} FirstBreakAfter(a: string, b: string)
    requires NoBreak(a)
    requires b != "" ==> IsBreak(b[0])
    ensures FirstBreak(a + b) == |a|
    decreases |a|
  {
    if |a| > 0 {
      assert (a + b)[0] == a[0];
      assert (a + b)[1..] == a[1..] + b;
      FirstBreakAfter(a[1..], b);
    }
  }

  /** A run of breaks `r` after `a` ends where the text `b` that follows it begins. */
  lemma {:induction false} RunEndAfter(a: string, r: string, b: string)
    requires AllBreaks(r)
    requires b != "" ==> !IsBreak(b[0])
    ensures RunEnd(a + r + b, |a|) == |a| + |r|
    decreases |r|
  {
    var s := a + r + b;
    if |r| == 0 {
      assert s == a + b;
      if b != "" { assert s[|a|] == b[0]; }
    } else {
      assert s[|a|] == r[0];
      assert s == (a + [r[0]]) + r[1..] + b;
      RunEndAfter(a + [r[0]], r[1..], b);
    }
  }

  /** The lines interleaved with non-empty runs of CR/LF. */
  function Interleave(lines: seq<string>, seps: seq<string>): string
    requires |seps| + 1 == |lines|
  {
    if |seps| == 0 then lines[0]
    else lines[0] + seps[0] + Interleave(lines[1..], seps[1..])
  }

  /**
   * `Lines` recovers exactly the lines of a note assembled from break-free
   * lines (non-empty except the first and the last) and non-empty runs of
   * CR/LF: whatever the separators were, the lines come back in order.
   */
  lemma {:induction false} LinesOfInterleave(lines: seq<string>, seps: seq<string>)
    requires |seps| + 1 == |lines|
    requires forall i :: 0 <= i < |lines| ==> NoBreak(lines[i])
    requires forall i :: 0 < i < |lines| - 1 ==> lines[i] != ""
    requires forall i :: 0 <= i < |seps| ==> seps[i] != "" && AllBreaks(seps[i])
    ensures Lines(Interleave(lines, seps)) == lines
    decreases |seps|
  {
    var s := Interleave(lines, seps);
    if |seps| == 0 {
      assert s == lines[0];
      FirstBreakAfter(s, "");
      assert s + "" == s;
    } else {
      var l0 := lines[0];
      var sep := seps[0];
      var tail := Interleave(lines[1..], seps[1..]);
      assert s == l0 + sep + tail;
      assert tail != "" ==> !IsBreak(tail[0]) by {
        if |seps| > 1 {
          assert tail == lines[1] + (seps[1] + Interleave(lines[2..], seps[2..]));
          assert lines[1] != "";
          assert tail[0] == lines[1][0];
        } else {
          assert tail == lines[1];
        }
      }
      assert s == l0 + (sep + tail);
      FirstBreakAfter(l0, sep + tail);
      RunEndAfter(l0, sep, tail);
      var j := RunEnd(s, |l0|);
      assert s[j..] == tail;
      var ls := lines[1..];
      var ss := seps[1..];
      assert forall i :: 0 <= i < |ls| ==> NoBreak(ls[i]) by {
        forall i | 0 <= i < |ls| ensures NoBreak(ls[i]) { assert ls[i] == lines[i + 1]; }
      }
      assert forall i :: 0 < i < |ls| - 1 ==> ls[i] != "" by {
        forall i | 0 < i < |ls| - 1 ensures ls[i] != "" { assert ls[i] == lines[i + 1]; }
      }
      assert forall i :: 0 <= i < |ss| ==> ss[i] != "" && AllBreaks(ss[i]) by {
        forall i | 0 <= i < |ss| ensures ss[i] != "" && AllBreaks(ss[i]) { assert ss[i] == seps[i + 1]; }
      }
      LinesOfInterleave(ls, ss);
      assert s[..|l0|] == l0;
      assert Lines(s) == [l0] + ls;
    }
  }

  // ---------------------------------------------------------------------------
  // the regular expression  key\s*(.*)  with the i flag
  // ---------------------------------------------------------------------------

  /** Characters `.` does not match: the four ECMAScript line terminators. */
  predicate IsTerminator(c: char)
  {
    c == '\n' || c == '\r' || c == '\U{2028}' || c == '\U{2029}'
  }

  /** ECMAScript `\s`: white space and line terminators. */
  predicate IsSpace(c: char)
  {
    || c == '\t' || c == '\U{000B}' || c == '\U{000C}' || c == ' '
    || c == '\U{00A0}' || c == '\U{1680}' || ('\U{2000}' <= c <= '\U{200A}')
    || c == '\U{202F}' || c == '\U{205F}' || c == '\U{3000}' || c == '\U{FEFF}'
    || IsTerminator(c)
  }

  /**
   * Case folding of the `i` flag without the `u` flag: a character is mapped
   * to its upper case, but never from outside ASCII into ASCII, so only the
   * ASCII letters fold for an ASCII key.
   */
  function Fold(c: char): char
  {
    if 'a' <= c <= 'z' then (c as int - 32) as char else c
  }

  /** The key occurs at position `i` of `line`, ignoring case. */
  predicate KeyAt(line: string, key: string, i: nat)
  {
    i + |key| <= |line| && forall j :: 0 <= j < |key| ==> Fold(line[i + j]) == Fold(key[j])
  }

  predicate HasKey(line: string, key: string)
  {
    exists i :: 0 <= i <= |line| && KeyAt(line, key, i)
  }

  /** Leftmost position at or after `from` where the key occurs. */
  function FindKey(line: string, key: string, from: nat): (r: Option<nat>)
    requires from <= |line|
    ensures r.Some? ==> from <= r.value <= |line| && KeyAt(line, key, r.value)
    ensures r.Some? ==> forall j :: from <= j < r.value ==> !KeyAt(line, key, j)
    ensures r.None? ==> forall j :: from <= j <= |line| ==> !KeyAt(line, key, j)
    decreases |line| - from
  {
    if KeyAt(line, key, from) then Some(from)
    else if from == |line| then None
    else FindKey(line, key, from + 1)
  }

  /** Length of the `\s*` prefix of `s` (greedy). */
  function SpaceRun(s: string, i: nat): (j: nat)
    requires i <= |s|
    ensures i <= j <= |s|
    ensures forall k :: i <= k < j ==> IsSpace(s[k])
    ensures j < |s| ==> !IsSpace(s[j])
    decreases |s| - i
  {
    if i == |s| || !IsSpace(s[i]) then i else SpaceRun(s, i + 1)
  }

  /** End of the `(.*)` group starting at `i` (greedy, stops at a line terminator). */
  function DotRun(s: string, i: nat): (j: nat)
    requires i <= |s|
    ensures i <= j <= |s|
    ensures forall k :: i <= k < j ==> !IsTerminator(s[k])
    ensures j < |s| ==> IsTerminator(s[j])
    decreases |s| - i
  {
    if i == |s| || IsTerminator(s[i]) then i else DotRun(s, i + 1)
  }

  /**
   * `/key\s*(.*)/i.exec(line)` followed by taking group 1: the text after
   * the leftmost occurrence of the key, after any white space, up to the end
   * of the line or the first line terminator. `None` when the key does not
   * occur in the line.
   */
  function Extract(line: string, key: string): (r: Option<string>)
    ensures r.Some? <==> HasKey(line, key)
    ensures r.Some? ==> exists i: nat, a: nat, b: nat :: Captured(line, key, i, a, b) && r.value == line[a..b]
  {
    match FindKey(line, key, 0)
    case None => None
    case Some(i) =>
      var a := SpaceRun(line, i + |key|);
      var b := DotRun(line, a);
      assert Captured(line, key, i, a, b);
      Some(line[a..b])
  }

  /**
   * The match the regular expression engine reports: the key at the leftmost
   * position `i`, white space up to `a`, and the capture `line[a..b]` running to
   * the end of the line or to a line terminator. No white space follows the
   * spaces, because `\s*` is greedy and line terminators count as white space.
   */
  ghost predicate Captured(line: string, key: string, i: nat, a: nat, b: nat)
  {
    && i + |key| <= a <= b <= |line|
    && KeyAt(line, key, i)
    && (forall j :: 0 <= j < i ==> !KeyAt(line, key, j))
    && (forall k :: i + |key| <= k < a ==> IsSpace(line[k]))
    && (a < |line| ==> !IsSpace(line[a]))
    && (forall k :: a <= k < b ==> !IsTerminator(line[k]))
    && (b < |line| ==> IsTerminator(line[b]))
  }

  /** The match is unique: the capture is determined by the line and the key. */
  lemma CapturedUnique(line: string, key: string, i: nat, a: nat, b: nat, i': nat, a': nat, b': nat)
    requires Captured(line, key, i, a, b) && Captured(line, key, i', a', b')
    ensures i == i' && a == a' && b == b'
  {
  }
}
